=== FILE: README.md ===
# Notion page watcher — verified model of the daily digest core

`notion_page_watcher.py` runs once a day. It asks the Notion search API for
recently edited pages and keeps the ones last edited "yesterday" in Korea
Standard Time. For each kept page it creates a tracking record in a Notion
database and writes a numbered line into an HTML digest. The digest is mailed
to a list of recipients.

This project models the pure core of that script in Dafny and proves its
properties:

- `get_now(now)` with a `yyyymmdd` string. `int()` reads each of the three
  slices, the `datetime` constructor validates them, and the result is midnight
  at Asia/Seoul (`refdate.dfy`).
- The day window `[today_start - 1 day, today_start)` (`refdate.dfy`). It rests
  on Python's proleptic Gregorian ordinals (`civil.dfy`) and on millisecond
  instants at a fixed UTC offset (`instants.dfy`).
- `filter_yesterday_updates` (`filter.dfy`). It reads `last_edited_time` in the
  shape the API sends, `YYYY-MM-DDTHH:MM:SS[.fff]Z` (`stamps.dfy`). It converts
  that time to Korea time and compares it with the window.
- `extract_title` and `extract_user_id` (`pages.dfy`). A JSON object is a
  datatype with `Option` fields, where `None` means the key is missing.
- The body of `main` after the search (`digest.dfy`). It is turned into a
  `Plan`: the `add_to_db` calls in order, the e-mail it would send, and the
  exception that ended the run, if any. The e-mail body is `Body(entries)`. Its
  subject is `Subject(label)`.
- Worked examples for the reference dates `20251217` and `20250101`
  (`scenarios.dfy`).

Python exceptions become `Err` values in a `Result`. Three kinds occur:

- `ValueError`: a bad reference date or a bad time stamp.
- `OverflowError`: a reference day too large for the C `int` the `datetime`
  constructor reads it into, stepping before 0001-01-01, or converting past
  9999-12-31.
- `KeyError`: a missing key.

Asia/Seoul is a fixed +09:00 offset.

The filter compares two aware datetimes that share one `ZoneInfo` object.
Python does that by wall fields, and the model does the same.
`Instants.WallOrderIsInstantOrder` proves that this is the same as comparing
instants. It follows that for reference date D the kept UTC instants are
exactly `[D-2 15:00Z, D-1 15:00Z)`.

For reference date `20251217`, a page stamped `2025-12-16T23:59:59Z` reads
08:59:59 KST on the 17th and is dropped, although it is still the 16th in UTC
(`Scenarios.LateUtcEditDropped`).

## Model

| member | source | states |
|---|---|---|
| Decimal.ParseInt | notion_page_watcher.py:79-81 | `int()` on a slice: an all-digit text gives its decimal value, only a `-` sign gives a negative result, and text starting with anything other than a digit or sign raises |
| Decimal.ParseIntRoundTrip | notion_page_watcher.py:79-81 | `int()` reads back `str(n)`, every zero-padded rendering of `n`, and `-n` |
| Decimal.ZeroPadWidth | notion_page_watcher.py:219 | `f"{n:02d}"` has exactly the requested width whenever `n` fits in it |
| Civil.PrevDay | notion_page_watcher.py:96 | the day before a valid date other than 0001-01-01 is a valid date earlier in the calendar; `Civil.OrdinalPrevDay` and `Civil.PrevDayUnique` pin it as the date one ordinal back |
| Civil.OrdinalOrder | notion_page_watcher.py:109 | calendar order and `toordinal()` order agree, in both directions |
| Civil.OrdinalPrevDay | notion_page_watcher.py:96 | one civil day back lowers the ordinal by exactly one, across month and year ends |
| Civil.OrdinalNextDay | notion_page_watcher.py:106 | the day carried into by `astimezone` has the next ordinal |
| Civil.PrevDayUnique | notion_page_watcher.py:96 | the previous day is the only valid date whose ordinal is one less |
| Civil.PrevNextInverse | notion_page_watcher.py:96 | stepping one day forward and one back, in either order, returns the start date |
| Instants.ToKst | notion_page_watcher.py:106 | `astimezone(Asia/Seoul)` yields a valid datetime, and raises `OverflowError` exactly when nine hours later would pass 9999-12-31 |
| Instants.ToKstPreservesInstant | notion_page_watcher.py:103-106 | the Korea reading denotes the same instant as the UTC reading |
| Instants.MinusOneDay | notion_page_watcher.py:96 | `- timedelta(days=1)` keeps the time of day and raises `OverflowError` exactly at 0001-01-01 |
| Instants.MinusOneDayIs24Hours | notion_page_watcher.py:96 | one civil day back on a fixed-offset clock is exactly 86 400 000 ms back |
| Instants.AtMidnight | notion_page_watcher.py:84 | `.replace(hour=0, minute=0, second=0, microsecond=0)` keeps the date, clears the time of day and keeps a valid datetime valid |
| Instants.AtMidnightIdempotent | notion_page_watcher.py:83-84 | `.replace(hour=0, ...)` applied twice equals once, and leaves a midnight value unchanged |
| Instants.WallOrderIsInstantOrder | notion_page_watcher.py:109 | comparing wall fields on one clock is comparing instants, for both `<` and `<=` |
| Stamps.ParseApiTimestamp | notion_page_watcher.py:103-105 | `fromisoformat` after the `Z` replace: the model accepts exactly the texts of length 20 or 24 that end in `Z`, have no `Z` between date and time, and carry a real date, a real time and, in the long shape, a `.` and three digits, and CPython 3.9 and 3.10 read each of these the same way; the result's date, hour, minute, second and millisecond are those fields, milliseconds being 0 in the short shape; any failure is a `ValueError`. The further texts CPython accepts are listed under "## Left out" |
| Stamps.ApiSecondsRoundTrip | notion_page_watcher.py:103-105 | a stamp `YYYY-MM-DDTHH:MM:SSZ` reads back as the same second with milliseconds 0 |
| Stamps.ZSeparatorRejected | notion_page_watcher.py:104 | a stamp with `Z` between date and time raises, because the replace rewrites that `Z` too |
| Stamps.ApiTimestampRoundTrip | notion_page_watcher.py:103-105 | every valid UTC datetime in the API's rendering parses back to itself |
| Stamps.StrftimeText | notion_page_watcher.py:238 | no ensures of its own; `Stamps.StrftimeRoundTrip` states that the text reads back as the date and the time to the second |
| Stamps.IsoDateText | notion_page_watcher.py:219 | no ensures of its own; `Stamps.IsoDateRoundTrip` states that the `write_date` text reads back as exactly that date |
| Stamps.MonthDayLabel | notion_page_watcher.py:218 | no ensures of its own; `Stamps.MonthDayLabelParts` states its month, slash and day |
| Stamps.StrftimeRoundTrip | notion_page_watcher.py:238 | `strftime('%Y-%m-%d %H:%M:%S')` has 19 characters, and its two halves read back as the date and the time to the second |
| Stamps.IsoDateRoundTrip | notion_page_watcher.py:219 | the tracking record's `write_date` text reads back as exactly yesterday's date |
| Stamps.MonthDayLabelParts | notion_page_watcher.py:218 | the subject label is the unpadded month, one slash, and the unpadded day, each reading back as its number |
| RefDate.Head | notion_page_watcher.py:79-80 | `s[:k]` keeps the first `k` characters, or all of a shorter string |
| RefDate.Tail | notion_page_watcher.py:80-81 | `s[k:]` keeps the characters from `k` on, or none |
| RefDate.GetNow | notion_page_watcher.py:79-86 | success means a valid midnight whose year, month and day are the `int()` of `now[:4]`, `now[4:6]` and `now[6:]`; a failure is an `OverflowError` exactly when all three slices read but the day falls outside the C `int` range, and otherwise a `ValueError` from a bad slice or an impossible date |
| RefDate.GetNowRoundTrip | notion_page_watcher.py:79-86 | every `yyyymmdd` text of a valid date gives that date's midnight |
| RefDate.GetNowRejectsImpossibleDates | notion_page_watcher.py:83 | a `yyyymmdd` text naming a month or day the calendar lacks raises `ValueError`, when the day fits a C `int` |
| RefDate.GetNowDayOverflow | notion_page_watcher.py:81-83 | a `yyyymmdd…` text whose day is 2^31 or more raises `OverflowError`, whatever its year and month |
| RefDate.YesterdayWindow | notion_page_watcher.py:95-96 | on success the window ends at `get_now(now)` and starts at the previous day's midnight; it fails exactly when `get_now` fails or the date is 0001-01-01 |
| RefDate.WindowBounds | notion_page_watcher.py:95-96 | the window is 24 hours long and, in UTC, runs from 15:00 two days before the reference date to 15:00 the day before |
| Pages.FirstTitleFrom | notion_page_watcher.py:120-121 | finds the first property at or after a position that is title-typed with a non-empty list, or reports that there is none |
| Pages.ExtractTitle | notion_page_watcher.py:115-129 | `extract_title`; no ensures of its own, stated by `Pages.ExtractTitleCases` |
| Pages.ExtractTitleCases | notion_page_watcher.py:115-129 | the title is the placeholder without `properties` or without a title property; otherwise it is the first span's `plain_text` (or the placeholder) of the first title property |
| Pages.EmptyTitleIsSkipped | notion_page_watcher.py:121 | a title-typed property with an empty list in front does not change the title |
| Pages.ExtractUserId | notion_page_watcher.py:132-137 | `None` exactly without `last_edited_by`, the editor's id exactly when it has one, and `KeyError` exactly when that object lacks `id` |
| Pages.UserIdReadsOnlyEditor | notion_page_watcher.py:132-137 | pages with the same `last_edited_by` have the same user id |
| Filter.Truthy | notion_page_watcher.py:100 | `if results` (also line 211): no ensures of its own; `Filter.FilterYesterdayUpdates` and `Digest.PlanRun` state what a falsy search leads to |
| Filter.EditedKst | notion_page_watcher.py:103-106 | a missing `last_edited_time` raises `KeyError`; a success is a valid datetime from a well-formed stamp |
| Filter.EditedKstSameInstant | notion_page_watcher.py:103-106 | the converted edit time is the same instant as the stamp |
| Filter.FilterPages | notion_page_watcher.py:101-110 | the loop succeeds exactly when every page's time converts |
| Filter.FilterPagesFirstError | notion_page_watcher.py:101-106 | a failing loop raises the error of the first page whose time does not convert |
| Filter.FilterPagesStep | notion_page_watcher.py:109-110 | a readable first page is placed in front of the rest's result exactly when it is in the window |
| Filter.FilterPagesSelects | notion_page_watcher.py:98-112 | the output is an order-preserving subsequence, every output page is in the window, every input page in the window is output, and each as often as in the input |
| Filter.FilterYesterdayUpdates | notion_page_watcher.py:89-112 | a bad reference date raises first; a falsy search result or one without `'results'` gives no pages; otherwise the loop runs over `results['results']` with the day window |
| Filter.KeptIffUtcInstantInWindow | notion_page_watcher.py:103-109 | a page is kept exactly when its UTC instant is within 24 hours before 15:00Z of the day before the reference date |
| Filter.InWindow | notion_page_watcher.py:109 | `yesterday_start_kst <= last_edited_kst < today_start_kst`; no ensures of its own, `Filter.KeptIffUtcInstantInWindow` states it as a half-open range of UTC instants |
| Filter.WindowIsHalfOpen | notion_page_watcher.py:109 | the window's start is inside it and its end is not |
| Digest.Subject | notion_page_watcher.py:193 | no ensures of its own; `Digest.SubjectLabelReadsBack` and `Digest.SubjectNamesDay` state what it holds |
| Digest.SubjectLabelReadsBack | notion_page_watcher.py:193 | the subject is the fixed prefix, the label and `)`, so the label can be read back out of it |
| Digest.SubjectNamesDay | notion_page_watcher.py:193 | the subject of the mail for yesterday carries yesterday's unpadded month, a slash and its unpadded day |
| Digest.Join | notion_page_watcher.py:243 | `sep.join(parts)` is empty for no parts and the part itself for one; `Digest.JoinAppend` states how it grows |
| Digest.JoinAppend | notion_page_watcher.py:239-243 | joining one more part appends the separator and that part |
| Digest.BodyAppend | notion_page_watcher.py:238-243 | each further entry adds a blank line and its HTML to the end of the body |
| Digest.Body | notion_page_watcher.py:243 | no ensures of its own; `Digest.BodyAppend` states it entry by entry |
| Digest.EntryHtml | notion_page_watcher.py:238 | no ensures of its own; `Digest.EntryHtmlNumber` states its opening and number |
| Digest.EntryHtmlNumber | notion_page_watcher.py:238 | each digest line opens with `<b>`, its number and `. `, and the number reads back as the entry's ordinal |
| Digest.MissingKey | notion_page_watcher.py:227-229 | a page missing a key the loop reads raises `KeyError` |
| Digest.PageError | notion_page_watcher.py:226-232 | the loop body raises exactly when a key is missing or the edit time does not convert, and the missing key comes first |
| Digest.ProcessPages | notion_page_watcher.py:225-239 | one tracking record and one entry numbered `k+1` per page, in order, carrying the page's title, id, editor, URL and Korea time; it stops at the first page whose body raises, with that page's error |
| Digest.PlanRun | notion_page_watcher.py:210-243 | a falsy search does nothing; a filter error ends the run with no records; otherwise records are dated yesterday, and mail is sent to the given recipients with the `month/day` label exactly when the run finishes with pages selected |
| Scenarios.GetNowDec17 | notion_page_watcher.py:79-86 | `get_now("20251217")` is midnight of 17 December 2025 |
| Scenarios.GetNowRejectsMonth13 | notion_page_watcher.py:83 | `"20251317"` raises `ValueError` |
| Scenarios.GetNowRejectsFeb30 | notion_page_watcher.py:83 | `"20250230"` raises `ValueError` |
| Scenarios.GetNowDayOverflowExample | notion_page_watcher.py:81-83 | year 2025, month 13 and day 2147483648 raise `OverflowError`, not the `ValueError` month 13 alone would give |
| Scenarios.NewYearWindow | notion_page_watcher.py:95-96 | reference `20250101` gives a window starting at 2024-12-31 00:00 KST |
| Scenarios.Dec17Window | notion_page_watcher.py:95-96 | reference `20251217` gives the whole of 16 December, KST |
| Scenarios.LastSecondKept | notion_page_watcher.py:103-110 | the API stamp of 2025-12-16 14:59:59.000 UTC is 23:59:59 KST on the 16th and is kept |
| Scenarios.TodayStartDropped | notion_page_watcher.py:103-110 | the API stamp of 2025-12-16 15:00:00.000 UTC is midnight KST on the 17th and is dropped |
| Scenarios.YesterdayStartKept | notion_page_watcher.py:103-110 | the API stamp of 2025-12-15 15:00:00.000 UTC is exactly the window's start and is kept |
| Scenarios.LateUtcEditDropped | notion_page_watcher.py:103-110 | the API stamp of 2025-12-16 23:59:59.000 UTC is 08:59:59 KST on the 17th and is dropped |
| Scenarios.Dec17Selection | notion_page_watcher.py:98-112 | of those two late-day pages, the filter for `20251217` keeps only the one at 14:59:59Z |

## Left out

- The clock branch of `get_now` (lines 73-77) reads the host clock and is not modelled. The reference date is always the `now` string.
- HTTP calls are network I/O and are not modelled: `get_users`, `get_user_list`, `search_recent_pages`, and the request built by `add_to_db`. The search outcome is an input (`None` for a failed request). Each `add_to_db` call becomes a `TrackingRecord`. A non-200 reply does not affect the run, but an exception that `requests.post` raises on line 178, such as a connection error, ends `main`'s loop; that case is not modelled. `get_user_list` also fails when `users` is `None`, but it is never called.
- `send_email` and SMTP are I/O and are not modelled. The plan records the recipients, the subject label and the entries. The reuse of one `message` object across recipients is a mail-library concern.
- Configuration from `.env` or `os.environ`, and the `__main__` entry point, are not modelled.
- The IANA time-zone database is not modelled. Asia/Seoul is a fixed +09:00 offset, which has been accurate since 1988.
- `datetime.fromisoformat` is modelled only for the two shapes the search API sends. Other offsets, fraction lengths of other than three digits, and naive strings are not modelled. Sub-millisecond precision does not occur in these shapes.
- Decimal.ParseInt: does not accept the surrounding whitespace, `_` separators or non-ASCII digits that Python's `int()` also accepts. A `now` slice containing them is rejected here but accepted by Python. Python 3.9.14, 3.10.7 and later also raise `ValueError` for a text of more than 4300 digits; the model reads it.
- RefDate.GetNow: a day slice of more than 4300 digits is an `OverflowError` here, while a Python with the 4300-digit limit raises `ValueError` from `int()` on line 81 first.
- Stamps.ParseApiTimestamp: follows `fromisoformat` of Python 3.9 and 3.10 for the API's two shapes only, and rejects some texts of 20 or 24 characters ending in `Z` that CPython accepts. CPython 3.9 and 3.10 also accept a `:` instead of the `.` before the fraction (`2025-12-16T14:59:59:123Z`, read as 14:59:59.123) and a fraction straight after the minutes (`2025-12-16T14:59.123456Z`, read as 14:59:00.123456). From Python 3.11 on, which rejects those two, `fromisoformat` accepts the basic format without separators (`20251216T145959.000Z`), a comma before the fraction (`2025-12-16T14:59:59,000Z`) and week dates (`2025-W51-2T14:59:59.000Z`).
- Stamps.StrftimeText: `%Y` is modelled as four zero-padded digits. For years before 1000, the platform's C library may print fewer digits.
- Pages: a `title` value that is truthy but not a list, property values that are not objects, and span keys other than `plain_text` are not modelled. Duplicate property names cannot occur in a parsed JSON object.
- Exception messages are not modelled: a `ValueError` is one value whatever Python's text says. For example, the `datetime` constructor says "month must be in 1..12" for month 13 and "year 0 is out of range" for year 0, and the model does not tell these apart. `KeyError` keeps its key, as Python's exception does.
- A JSON `null` under a key that is present is not modelled, because `Option.None` stands for a missing key. In Python each such `null` raises: `'last_edited_by': null` raises `TypeError` on line 134, `'results': null` raises `TypeError` on line 101, and `'properties': null` raises `AttributeError` on line 120.
- The HTML digest is modelled as the entry text built on line 238 and the join on line 243. The MIME framing is not modelled.

=== FILE: civil.dfy ===
/** Proleptic Gregorian calendar dates as Python's `datetime` module handles
    them: years 1..9999, and day numbers ("ordinals") counted from 0001-01-01,
    which is day 1.
 */
module Civil {

  const MinYear := 1
  const MaxYear := 9999

  datatype Date = Date(year: int, month: int, day: int)

  const MinDate := Date(MinYear, 1, 1)
  const MaxDate := Date(MaxYear, 12, 31)

  predicate IsLeapYear(y: int) {
    y % 4 == 0 && (y % 100 != 0 || y % 400 == 0)
  }

  function DaysInYear(y: int): int {
    if IsLeapYear(y) then 366 else 365
  }

  function DaysInMonth(y: int, m: int): (n: int)
    requires 1 <= m <= 12
    ensures 28 <= n <= 31
  {
    if m == 2 then (if IsLeapYear(y) then 29 else 28)
    else if m == 4 || m == 6 || m == 9 || m == 11 then 30
    else 31
  }

  /** What the `date`/`datetime` constructor accepts without raising `ValueError`. */
  predicate ValidDate(d: Date) {
    && MinYear <= d.year <= MaxYear
    && 1 <= d.month <= 12
    && 1 <= d.day <= DaysInMonth(d.year, d.month)
  }

  /** Days in the years before `y` (Python's `_days_before_year`). */
  function DaysBeforeYear(y: int): int
    requires y >= 1
  {
    var p := y - 1;
    p * 365 + p / 4 - p / 100 + p / 400
  }

  /** Days in the months of `y` before `m` (Python's `_days_before_month`). */
  function DaysBeforeMonth(y: int, m: int): int
    requires 1 <= m <= 12
  {
    var common :=
      if m == 1 then 0 else if m == 2 then 31 else if m == 3 then 59
      else if m == 4 then 90 else if m == 5 then 120 else if m == 6 then 151
      else if m == 7 then 181 else if m == 8 then 212 else if m == 9 then 243
      else if m == 10 then 273 else if m == 11 then 304 else 334;
    common + (if m > 2 && IsLeapYear(y) then 1 else 0)
  }

  /** `date.toordinal()`: 0001-01-01 is day 1. */
  function Ordinal(d: Date): (n: int)
    requires ValidDate(d)
    ensures n >= 1
  {
    DaysBeforeYear(d.year) + DaysBeforeMonth(d.year, d.month) + d.day
  }

  /** Calendar order: by year, then month, then day. */
  predicate Before(a: Date, b: Date) {
    || a.year < b.year
    || (a.year == b.year && a.month < b.month)
    || (a.year == b.year && a.month == b.month && a.day < b.day)
  }

  /** The civil date one day earlier, rolling back over month and year ends. */
  function PrevDay(d: Date): (p: Date)
    requires ValidDate(d) && d != MinDate
    ensures ValidDate(p) && Before(p, d)
  {
    if d.day > 1 then Date(d.year, d.month, d.day - 1)
    else if d.month > 1 then Date(d.year, d.month - 1, DaysInMonth(d.year, d.month - 1))
    else Date(d.year - 1, 12, 31)
  }

  /** The civil date one day later, rolling over month and year ends. */
  function NextDay(d: Date): (n: Date)
    requires ValidDate(d) && d != MaxDate
    ensures ValidDate(n) && Before(d, n)
  {
    if d.day < DaysInMonth(d.year, d.month) then Date(d.year, d.month, d.day + 1)
    else if d.month < 12 then Date(d.year, d.month + 1, 1)
    else Date(d.year + 1, 1, 1)
  }

  lemma DaysBeforeYearStep(y: int)
    requires y >= 1
    ensures DaysBeforeYear(y + 1) == DaysBeforeYear(y) + DaysInYear(y)
  {
    MultiplesOf4Step(y);
    MultiplesOf100Step(y);
    MultiplesOf400Step(y);
    DivisibilityChain(y);
    var p := y - 1;
    assert DaysBeforeYear(y + 1) - DaysBeforeYear(y)
           == 365 + (y / 4 - p / 4) - (y / 100 - p / 100) + (y / 400 - p / 400);
  }

  /** A multiple of 400 is one of 100, and a multiple of 100 one of 4. */
  lemma DivisibilityChain(y: int)
    ensures y % 400 == 0 ==> y % 100 == 0
    ensures y % 100 == 0 ==> y % 4 == 0
  {
    if y % 400 == 0 {
      var m := 4 * (y / 400);
      assert y == 100 * m;
    }
    if y % 100 == 0 {
      var m := 25 * (y / 100);
      assert y == 4 * m;
    }
  }

  /** Among `1..y`, `y` itself adds one multiple of 4 exactly when 4 divides it. */
  lemma MultiplesOf4Step(y: int)
    requires y >= 1
    ensures y / 4 - (y - 1) / 4 == if y % 4 == 0 then 1 else 0
  {
    var q, r := y / 4, y % 4;
    if r == 0 {
      assert y - 1 == (q - 1) * 4 + 3;
    } else {
      assert y - 1 == q * 4 + (r - 1);
    }
  }

  /** Among `1..y`, `y` itself adds one multiple of 100 exactly when 100 divides it. */
  lemma MultiplesOf100Step(y: int)
    requires y >= 1
    ensures y / 100 - (y - 1) / 100 == if y % 100 == 0 then 1 else 0
  {
    var q, r := y / 100, y % 100;
    if r == 0 {
      assert y - 1 == (q - 1) * 100 + 99;
    } else {
      assert y - 1 == q * 100 + (r - 1);
    }
  }

  /** Among `1..y`, `y` itself adds one multiple of 400 exactly when 400 divides it. */
  lemma MultiplesOf400Step(y: int)
    requires y >= 1
    ensures y / 400 - (y - 1) / 400 == if y % 400 == 0 then 1 else 0
  {
    var q, r := y / 400, y % 400;
    if r == 0 {
      assert y - 1 == (q - 1) * 400 + 399;
    } else {
      assert y - 1 == q * 400 + (r - 1);
    }
  }

  lemma DaysBeforeMonthStep(y: int, m: int)
    requires 1 <= m <= 12
    ensures m < 12 ==> DaysBeforeMonth(y, m + 1) == DaysBeforeMonth(y, m) + DaysInMonth(y, m)
    ensures m == 12 ==> DaysBeforeMonth(y, m) + DaysInMonth(y, m) == DaysInYear(y)
  {
  }

  /** A year contributes at least 365 days. */
  lemma {:induction false} DaysBeforeYearGrows(x: int, y: int)
    requires 1 <= x <= y
    ensures DaysBeforeYear(x) + 365 * (y - x) <= DaysBeforeYear(y)
    decreases y - x
  {
    if x < y {
      DaysBeforeYearStep(x);
      DaysBeforeYearGrows(x + 1, y);
    }
  }

  /** The last day of a month is the day before the first of the next. */
  lemma MonthEndOrdinal(d: Date)
    requires ValidDate(d)
    ensures Ordinal(d) <= DaysBeforeYear(d.year) + DaysBeforeMonth(d.year, d.month)
                          + DaysInMonth(d.year, d.month)
    ensures Ordinal(d) <= DaysBeforeYear(d.year + 1)
  {
    DaysBeforeYearStep(d.year);
    DaysBeforeMonthStep(d.year, d.month);
    if d.month < 12 {
      MonthTotalBound(d.year, d.month + 1);
    }
  }

  lemma MonthTotalBound(y: int, m: int)
    requires 1 <= m <= 12
    ensures DaysBeforeMonth(y, m) + DaysInMonth(y, m) <= DaysInYear(y)
  {
  }

  /** Ordinals follow calendar order: an earlier date has a smaller ordinal. */
  lemma OrdinalMonotone(a: Date, b: Date)
    requires ValidDate(a) && ValidDate(b) && Before(a, b)
    ensures Ordinal(a) < Ordinal(b)
  {
    if a.year < b.year {
      MonthEndOrdinal(a);
      DaysBeforeYearGrows(a.year + 1, b.year);
    } else if a.month < b.month {
      DaysBeforeMonthStep(a.year, a.month);
      MonthsGrow(a.year, a.month + 1, b.month);
    }
  }

  lemma {:induction false} MonthsGrow(y: int, m: int, n: int)
    requires 1 <= m <= n <= 12
    ensures DaysBeforeMonth(y, m) <= DaysBeforeMonth(y, n)
    decreases n - m
  {
    if m < n {
      DaysBeforeMonthStep(y, m);
      MonthsGrow(y, m + 1, n);
    }
  }

  /** Distinct valid dates have distinct ordinals. */
  lemma OrdinalInjective(a: Date, b: Date)
    requires ValidDate(a) && ValidDate(b) && Ordinal(a) == Ordinal(b)
    ensures a == b
  {
    if Before(a, b) {
      OrdinalMonotone(a, b);
    } else if Before(b, a) {
      OrdinalMonotone(b, a);
    }
  }

  /** Calendar order and ordinal order agree in both directions. */
  lemma OrdinalOrder(a: Date, b: Date)
    requires ValidDate(a) && ValidDate(b)
    ensures Before(a, b) <==> Ordinal(a) < Ordinal(b)
  {
    if Before(a, b) {
      OrdinalMonotone(a, b);
    } else if Before(b, a) {
      OrdinalMonotone(b, a);
    }
  }

  /** Subtracting one civil day moves the ordinal back by exactly one. */
  lemma OrdinalPrevDay(d: Date)
    requires ValidDate(d) && d != MinDate
    ensures Ordinal(PrevDay(d)) == Ordinal(d) - 1
  {
    if d.day == 1 {
      if d.month > 1 {
        DaysBeforeMonthStep(d.year, d.month - 1);
      } else {
        DaysBeforeYearStep(d.year - 1);
        DaysBeforeMonthStep(d.year - 1, 12);
      }
    }
  }

  /** Adding one civil day moves the ordinal forward by exactly one. */
  lemma OrdinalNextDay(d: Date)
    requires ValidDate(d) && d != MaxDate
    ensures Ordinal(NextDay(d)) == Ordinal(d) + 1
  {
    if d.day == DaysInMonth(d.year, d.month) {
      DaysBeforeMonthStep(d.year, d.month);
      if d.month == 12 {
        DaysBeforeYearStep(d.year);
      }
    }
  }

  /** `PrevDay(d)` is the one valid date whose ordinal is one less than `d`'s. */
  lemma PrevDayUnique(d: Date, e: Date)
    requires ValidDate(d) && d != MinDate && ValidDate(e)
    ensures Ordinal(e) == Ordinal(d) - 1 <==> e == PrevDay(d)
  {
    OrdinalPrevDay(d);
    if Ordinal(e) == Ordinal(d) - 1 {
      OrdinalInjective(e, PrevDay(d));
    }
  }

  /** One day forward then one day back, and the other way round, is the identity. */
  lemma PrevNextInverse(d: Date)
    requires ValidDate(d)
    ensures d != MaxDate ==> NextDay(d) != MinDate && PrevDay(NextDay(d)) == d
    ensures d != MinDate ==> PrevDay(d) != MaxDate && NextDay(PrevDay(d)) == d
  {
    if d != MaxDate {
      var n := NextDay(d);
      OrdinalNextDay(d);
      assert n != MinDate by { OrdinalMonotone(d, n); }
      OrdinalPrevDay(n);
      OrdinalInjective(PrevDay(n), d);
    }
    if d != MinDate {
      var p := PrevDay(d);
      OrdinalPrevDay(d);
      assert p != MaxDate by { OrdinalMonotone(p, d); MaxDateOrdinalIsLargest(d); }
      OrdinalNextDay(p);
      OrdinalInjective(NextDay(p), d);
    }
  }

  lemma MaxDateOrdinalIsLargest(d: Date)
    requires ValidDate(d)
    ensures Ordinal(d) <= Ordinal(MaxDate)
  {
    if d != MaxDate {
      assert Before(d, MaxDate);
      OrdinalMonotone(d, MaxDate);
    }
  }

  /** `date(1970, 1, 1).toordinal()`, the day of the Unix epoch. */
  const UnixEpochOrdinal := 719163

  lemma UnixEpochOrdinalIsCorrect()
    ensures ValidDate(Date(1970, 1, 1)) && Ordinal(Date(1970, 1, 1)) == UnixEpochOrdinal
  {
    assert DaysBeforeYear(1970) == 1969 * 365 + 492 - 19 + 4;
  }
}

=== FILE: decimal.dfy ===
/** Decimal text: Python's `int(str)` on the way in and `str(n)`, `f"{n:02d}"`
    on the way out, with the round trips that connect them.
 */
module Decimal {
  import opened Errors

  predicate IsDigit(c: char) {
    '0' <= c <= '9'
  }

  predicate AllDigits(s: string) {
    forall i :: 0 <= i < |s| ==> IsDigit(s[i])
  }

  function DigitValue(c: char): (d: nat)
    requires IsDigit(c)
    ensures d < 10
  {
    c as int - '0' as int
  }

  function DigitChar(d: nat): (c: char)
    requires d < 10
    ensures IsDigit(c) && DigitValue(c) == d
  {
    ('0' as int + d) as char
  }

  /** The number a string of decimal digits denotes (most significant first). */
  function DigitsValue(s: string): nat
    requires AllDigits(s)
  {
    if |s| == 0 then 0 else DigitsValue(s[..|s| - 1]) * 10 + DigitValue(s[|s| - 1])
  }

  function Pow10(k: nat): (p: nat)
    ensures p >= 1
  {
    if k == 0 then 1 else 10 * Pow10(k - 1)
  }

  /** `str(n)` for a non-negative integer: no sign, no leading zeros. */
  function NatToString(n: nat): (s: string)
    ensures 1 <= |s| && AllDigits(s)
    ensures |s| > 1 ==> s[0] != '0'
  {
    if n < 10 then [DigitChar(n)] else NatToString(n / 10) + [DigitChar(n % 10)]
  }

  /** `f"{n:0{width}d}"` for a non-negative integer: `str(n)` left-padded with
      zeros up to at least `width` characters. */
  function ZeroPad(n: nat, width: nat): (s: string)
    ensures AllDigits(s)
    ensures |s| == if |NatToString(n)| < width then width else |NatToString(n)|
  {
    var t := NatToString(n);
    if |t| < width then Zeros(width - |t|) + t else t
  }

  function Zeros(k: nat): (z: string)
    ensures |z| == k && AllDigits(z)
    ensures forall i :: 0 <= i < k ==> z[i] == '0'
  {
    if k == 0 then "" else "0" + Zeros(k - 1)
  }

  /** Python's `int(s)` on a string: an optional `+` or `-` sign followed by one
      or more decimal digits; anything else raises `ValueError`. */
  function ParseInt(s: string): (r: Result<int>)
    ensures r.Ok? ==> |s| > 0
    ensures |s| > 0 && AllDigits(s) ==> r == Ok(DigitsValue(s))
    ensures r.Ok? && r.value < 0 ==> s[0] == '-'
    ensures |s| > 0 && !IsDigit(s[0]) && s[0] != '+' && s[0] != '-' ==> r.Err?
  {
    if |s| > 0 && (s[0] == '+' || s[0] == '-') then
      var body := s[1..];
      if |body| > 0 && AllDigits(body) then
        var magnitude: int := DigitsValue(body);
        var v := if s[0] == '-' then -magnitude else magnitude;
        Ok(v)
      else Err(ValueError)
    else if |s| > 0 && AllDigits(s) then
      Ok(DigitsValue(s))
    else
      Err(ValueError)
  }

  lemma {:induction false} DigitsValueAppend(s: string, c: char)
    requires AllDigits(s) && IsDigit(c)
    ensures AllDigits(s + [c])
    ensures DigitsValue(s + [c]) == DigitsValue(s) * 10 + DigitValue(c)
  {
    assert (s + [c])[..|s|] == s;
  }

  /** Leading zeros do not change the value of a digit string. */
  lemma {:induction false} DigitsValueLeadingZero(s: string)
    requires AllDigits(s)
    ensures AllDigits("0" + s)
    ensures DigitsValue("0" + s) == DigitsValue(s)
  {
    if |s| > 0 {
      var t := "0" + s;
      assert t[..|t| - 1] == "0" + s[..|s| - 1];
      DigitsValueLeadingZero(s[..|s| - 1]);
    }
  }

  lemma {:induction false} DigitsValueZeros(k: nat, s: string)
    requires AllDigits(s)
    ensures AllDigits(Zeros(k) + s)
    ensures DigitsValue(Zeros(k) + s) == DigitsValue(s)
  {
    if k > 0 {
      var rest := Zeros(k - 1) + s;
      DigitsValueZeros(k - 1, s);
      var whole := Zeros(k) + s;
      assert whole == "0" + rest;
      DigitsValueLeadingZero(rest);
      assert DigitsValue(whole) == DigitsValue("0" + rest);
    } else {
      assert Zeros(k) + s == s;
    }
  }

  /** A string of `k` digits denotes a number below `10^k`. */
  lemma {:induction false} DigitsValueBound(s: string)
    requires AllDigits(s)
    ensures DigitsValue(s) < Pow10(|s|)
  {
    if |s| > 0 {
      DigitsValueBound(s[..|s| - 1]);
    }
  }

  /** Reading back `str(n)` gives `n`. */
  lemma {:induction false} NatToStringRoundTrip(n: nat)
    ensures DigitsValue(NatToString(n)) == n
  {
    if n >= 10 {
      NatToStringRoundTrip(n / 10);
      DigitsValueAppend(NatToString(n / 10), DigitChar(n % 10));
    }
  }

  /** Reading back a zero-padded rendering gives `n`. */
  lemma ZeroPadRoundTrip(n: nat, width: nat)
    ensures DigitsValue(ZeroPad(n, width)) == n
  {
    var t := NatToString(n);
    NatToStringRoundTrip(n);
    var pad := if |t| < width then width - |t| else 0;
    assert ZeroPad(n, width) == Zeros(pad) + t by {
      if pad == 0 {
        assert Zeros(0) + t == t;
      }
    }
    DigitsValueZeros(pad, t);
  }

  /** `str(n)` has at most `k` characters exactly when `n < 10^k`. */
  lemma {:induction false} NatToStringLength(n: nat, k: nat)
    requires k >= 1
    ensures |NatToString(n)| <= k <==> n < Pow10(k)
  {
    if n >= 10 {
      if k == 1 {
        assert |NatToString(n)| >= 2;
      } else {
        NatToStringLength(n / 10, k - 1);
      }
    } else {
      if k > 1 {
        assert Pow10(k) == 10 * Pow10(k - 1);
      }
    }
  }

  /** `f"{n:0{width}d}"` has exactly `width` characters when `n < 10^width`. */
  lemma ZeroPadWidth(n: nat, width: nat)
    requires width >= 1 && n < Pow10(width)
    ensures |ZeroPad(n, width)| == width
  {
    NatToStringLength(n, width);
  }

  /** `int(str(n)) == n`, also for a zero-padded rendering and for `-n`. */
  lemma ParseIntRoundTrip(n: nat, width: nat)
    ensures ParseInt(NatToString(n)) == Ok(n)
    ensures ParseInt(ZeroPad(n, width)) == Ok(n)
    ensures ParseInt("-" + NatToString(n)) == Ok(-(n as int))
  {
    NatToStringRoundTrip(n);
    ZeroPadRoundTrip(n, width);
    var m := "-" + NatToString(n);
    assert m[1..] == NatToString(n);
  }
}

=== FILE: digest.dfy ===
/** The body of `main` with its I/O turned into data: instead of calling the
    record-creation endpoint and the mail relay, it returns the tracking
    records it would create, in order, and the digest e-mail it would send.
 */
module Digest {
  import opened Errors
  import opened Decimal
  import opened Civil
  import opened Instants
  import opened Stamps
  import opened RefDate
  import opened Pages
  import opened Filter

  /** The arguments of one `add_to_db(title, page_id, uid, write_date)` call. */
  datatype TrackingRecord = TrackingRecord(title: string, pageId: string, editor: Option<string>, date: string)

  /** One numbered digest line before it is rendered as HTML. */
  datatype Entry = Entry(ordinal: nat, title: string, url: string, editedAt: string)

  /** The arguments of `send_email(receivers, body, yesterday_email)`: the same
      subject and body go to every recipient. */
  datatype Email = Email(recipients: seq<string>, subjectLabel: string, entries: seq<Entry>)

  /** What one run does: the records it creates, the e-mail it sends, and the
      exception that ended it early, if any.  Records created before the
      exception stay created. */
  datatype Plan = Plan(records: seq<TrackingRecord>, email: Option<Email>, failure: Option<PyError>)

  const Spaces2 := "&nbsp;&nbsp;"
  const Spaces8 := "&nbsp;&nbsp;&nbsp;&nbsp;&nbsp;&nbsp;&nbsp;&nbsp;"

  /** The HTML fragment `main` appends to `body` for one page. */
  function EntryHtml(e: Entry): string {
    "<b>" + NatToString(e.ordinal) + ". " + EntryTail(e)
  }

  /** The part of an entry's HTML after its number. */
  function EntryTail(e: Entry): string {
    Spaces2 + e.title + "</b> <br> " + Spaces8 + e.url + " <br>" + Spaces8 + " (" + e.editedAt + " (KST))<br><br>"
  }

  /** `sep.join(parts)`. */
  function Join(parts: seq<string>, sep: string): (s: string)
    ensures |parts| == 1 ==> s == parts[0]
    ensures |parts| == 0 ==> s == ""
  {
    if |parts| == 0 then ""
    else if |parts| == 1 then parts[0]
    else parts[0] + sep + Join(parts[1..], sep)
  }

  /** The fixed text in front of the `month/day` label in the subject line. */
  const SubjectPrefix := "연구노트 업데이트 목록 ("

  /** `f"연구노트 업데이트 목록 ({yesterday})"`, the subject `send_email` sets. */
  function Subject(dayLabel: string): string {
    SubjectPrefix + dayLabel + ")"
  }

  /** The label can be read back out of the subject line: it sits between the
      fixed prefix and the closing parenthesis, so different days give
      different subjects. */
  lemma SubjectLabelReadsBack(dayLabel: string)
    ensures var s := Subject(dayLabel);
      && |s| == |SubjectPrefix| + |dayLabel| + 1
      && s[..|SubjectPrefix|] == SubjectPrefix && s[|s| - 1] == ')'
      && s[|SubjectPrefix|..|s| - 1] == dayLabel
  {
  }

  /** The subject of a day's digest names that day's month and day. */
  lemma SubjectNamesDay(d: Date)
    requires ValidDate(d)
    ensures var text := Subject(MonthDayLabel(d))[|SubjectPrefix|..|Subject(MonthDayLabel(d))| - 1];
            var k := |NatToString(d.month)|;
            k < |text| && text[k] == '/' && Field(text[..k]) == Some(d.month) && Field(text[k + 1..]) == Some(d.day)
  {
    SubjectLabelReadsBack(MonthDayLabel(d));
    MonthDayLabelParts(d);
  }

  /** `"\n\n".join(body)`: the e-mail's HTML body. */
  function Body(entries: seq<Entry>): string {
    Join(seq(|entries|, i requires 0 <= i < |entries| => EntryHtml(entries[i])), "\n\n")
  }

  /** Joining one more part adds the separator and that part at the end: the
      body grows as `body.append(...)` followed by the join would make it. */
  lemma {:induction false} JoinAppend(parts: seq<string>, x: string, sep: string)
    requires |parts| > 0
    ensures Join(parts + [x], sep) == Join(parts, sep) + sep + x
    decreases |parts|
  {
    var longer := parts + [x];
    if |parts| == 1 {
      assert longer[1..] == [x];
    } else {
      assert longer[1..] == parts[1..] + [x];
      JoinAppend(parts[1..], x, sep);
    }
  }

  /** The e-mail body of entries followed by one more entry is the body so far,
      a blank line, and that entry's HTML. */
  lemma BodyAppend(entries: seq<Entry>, e: Entry)
    requires |entries| > 0
    ensures Body(entries + [e]) == Body(entries) + "\n\n" + EntryHtml(e)
  {
    var longer := entries + [e];
    var parts := seq(|entries|, i requires 0 <= i < |entries| => EntryHtml(entries[i]));
    assert seq(|longer|, i requires 0 <= i < |longer| => EntryHtml(longer[i])) == parts + [EntryHtml(e)];
    JoinAppend(parts, EntryHtml(e), "\n\n");
  }

  /** Each digest line opens with its number in bold, and that number reads
      back as the entry's ordinal. */
  lemma EntryHtmlNumber(e: Entry)
    ensures var h, k := EntryHtml(e), |NatToString(e.ordinal)|;
      && |h| > 5 + k && h[..3] == "<b>" && h[3 + k..5 + k] == ". "
      && Field(h[3..3 + k]) == Some(e.ordinal)
  {
    NatToStringRoundTrip(e.ordinal);
    NumberedSlices(NatToString(e.ordinal), EntryTail(e));
  }

  lemma NumberedSlices(n: string, rest: string)
    requires |rest| > 0
    ensures var h := "<b>" + n + ". " + rest;
      && |h| > 5 + |n| && h[..3] == "<b>" && h[3..3 + |n|] == n && h[3 + |n|..5 + |n|] == ". "
  {
  }

  /** The page has the keys `main` reads with `[]`: `url`, `id`, and, when it has
      a `last_edited_by` object, that object's `id`. */
  predicate Complete(page: Page) {
    page.url.Some? && page.id.Some? && ExtractUserId(page).Ok?
  }

  /** The `KeyError` raised by the first of those lookups that fails. */
  function MissingKey(page: Page): (e: PyError)
    requires !Complete(page)
    ensures e.KeyError?
  {
    if page.url.None? then KeyError("url")
    else if page.id.None? then KeyError("id")
    else ExtractUserId(page).error
  }

  /** The record made for a selected page carries its title, its id, its
      editor and the record date. */
  predicate RecordFor(rec: TrackingRecord, page: Page, writeDate: string) {
    && rec.title == ExtractTitle(page)
    && page.id == Some(rec.pageId)
    && ExtractUserId(page) == Ok(rec.editor)
    && rec.date == writeDate
  }

  /** The `k`-th digest entry shows `k`, the page's title and URL, and its Korea
      edit time. */
  predicate EntryFor(e: Entry, k: nat, page: Page) {
    && e.ordinal == k
    && e.title == ExtractTitle(page)
    && page.url == Some(e.url)
    && EditedKst(page).Ok?
    && e.editedAt == StrftimeText(EditedKst(page).value)
  }

  /** The `add_to_db` arguments `main` builds for a complete page. */
  function RecordOf(page: Page, writeDate: string): (rec: TrackingRecord)
    requires Complete(page)
    ensures RecordFor(rec, page, writeDate)
  {
    TrackingRecord(ExtractTitle(page), page.id.value, ExtractUserId(page).value, writeDate)
  }

  /** The `k`-th digest entry `main` builds for a complete page. */
  function EntryOf(k: nat, page: Page): (e: Entry)
    requires Complete(page) && EditedKst(page).Ok?
    ensures EntryFor(e, k, page)
  {
    Entry(k, ExtractTitle(page), page.url.value, StrftimeText(EditedKst(page).value))
  }

  /** The exception the loop body raises for `page`, in the order it reads the
      page: `url`, `id`, the editor's `id`, then the edit time. */
  function PageError(page: Page): (e: Option<PyError>)
    ensures e.None? <==> Complete(page) && EditedKst(page).Ok?
    ensures !Complete(page) ==> e == Some(MissingKey(page))
  {
    if !Complete(page) then Some(MissingKey(page))
    else if EditedKst(page).Err? then Some(EditedKst(page).error)
    else None
  }

  /** The `for num, page in enumerate(yesterday_pages)` loop of `main`: one
      tracking record and one digest entry per page, in order, until the body
      raises for a page. */
  method ProcessPages(selected: seq<Page>, writeDate: string)
    returns (records: seq<TrackingRecord>, entries: seq<Entry>, failure: Option<PyError>)
    ensures |records| == |entries| <= |selected|
    ensures forall i :: 0 <= i < |records| ==> RecordFor(records[i], selected[i], writeDate)
    ensures forall i :: 0 <= i < |entries| ==> EntryFor(entries[i], i + 1, selected[i])
    ensures failure.None? <==> |records| == |selected|
    ensures failure.Some? ==> failure == PageError(selected[|records|])
  {
    records, entries := [], [];
    var i := 0;
    while i < |selected|
      invariant 0 <= i <= |selected|
      invariant |records| == i && |entries| == i
      invariant forall j :: 0 <= j < i ==> RecordFor(records[j], selected[j], writeDate)
      invariant forall j :: 0 <= j < i ==> EntryFor(entries[j], j + 1, selected[j])
    {
      var page := selected[i];
      var err := PageError(page);
      if err.Some? {
        return records, entries, err;
      }
      var rec, entry := RecordOf(page, writeDate), EntryOf(i + 1, page);
      RecordsExtend(records, selected, writeDate, rec);
      EntriesExtend(entries, selected, entry);
      records, entries := records + [rec], entries + [entry];
      i := i + 1;
    }
    return records, entries, None;
  }

  lemma RecordsExtend(records: seq<TrackingRecord>, selected: seq<Page>, writeDate: string, rec: TrackingRecord)
    requires |records| < |selected|
    requires forall j :: 0 <= j < |records| ==> RecordFor(records[j], selected[j], writeDate)
    requires RecordFor(rec, selected[|records|], writeDate)
    ensures forall j :: 0 <= j < |records| + 1 ==> RecordFor((records + [rec])[j], selected[j], writeDate)
  {
    forall j | 0 <= j < |records| + 1
      ensures RecordFor((records + [rec])[j], selected[j], writeDate)
    {
      if j < |records| {
        assert (records + [rec])[j] == records[j];
      }
    }
  }

  lemma EntriesExtend(entries: seq<Entry>, selected: seq<Page>, entry: Entry)
    requires |entries| < |selected|
    requires forall j :: 0 <= j < |entries| ==> EntryFor(entries[j], j + 1, selected[j])
    requires EntryFor(entry, |entries| + 1, selected[|entries|])
    ensures forall j :: 0 <= j < |entries| + 1 ==> EntryFor((entries + [entry])[j], j + 1, selected[j])
  {
    forall j | 0 <= j < |entries| + 1
      ensures EntryFor((entries + [entry])[j], j + 1, selected[j])
    {
      if j < |entries| {
        assert (entries + [entry])[j] == entries[j];
      }
    }
  }

  /** What a run that got past the filter promises, for the pages `selected`
      and the day `yesterday`. */
  predicate PlanFollows(plan: Plan, selected: seq<Page>, yesterday: Date, recipients: seq<string>)
    requires ValidDate(yesterday)
  {
    && |plan.records| <= |selected|
    && (forall i :: 0 <= i < |plan.records| ==>
          RecordFor(plan.records[i], selected[i], IsoDateText(yesterday)))
    && (plan.failure.None? <==> |plan.records| == |selected|)
    && (plan.failure.Some? ==>
          && plan.email.None?
          && !Complete(selected[|plan.records|])
          && plan.failure.value == MissingKey(selected[|plan.records|]))
    && (plan.failure.None? ==> (plan.email.Some? <==> |selected| > 0))
    && (plan.email.Some? ==>
          && plan.email.value.recipients == recipients
          && plan.email.value.subjectLabel == MonthDayLabel(yesterday)
          && |plan.email.value.entries| == |selected|
          && forall i :: 0 <= i < |selected| ==>
               EntryFor(plan.email.value.entries[i], i + 1, selected[i]))
  }

  /** The run of `main(receivers, now)` given the search outcome `response`
      (`None` for a failed search). */
  method PlanRun(response: Option<SearchResponse>, recipients: seq<string>, now: string)
    returns (plan: Plan)
    ensures !Truthy(response) ==> plan == Plan([], None, None)
    ensures Truthy(response) && FilterYesterdayUpdates(response, now).Err? ==>
              plan == Plan([], None, Some(FilterYesterdayUpdates(response, now).error))
    ensures Truthy(response) && FilterYesterdayUpdates(response, now).Ok? ==>
              && YesterdayWindow(now).Ok?
              && PlanFollows(plan, FilterYesterdayUpdates(response, now).value,
                             YesterdayWindow(now).value.start.date, recipients)
  {
    if !Truthy(response) {
      return Plan([], None, None);
    }
    var filtered := FilterYesterdayUpdates(response, now);
    if filtered.Err? {
      return Plan([], None, Some(filtered.error));
    }
    var selected := filtered.value;
    SelectedPagesConvert(response, now);
    var yesterday := YesterdayWindow(now).value.start.date;
    var dayLabel := MonthDayLabel(yesterday);
    var writeDate := IsoDateText(yesterday);
    var records, entries, failure := ProcessPages(selected, writeDate);
    if failure.Some? {
      return Plan(records, None, failure);
    }
    var email := if |selected| > 0 then Some(Email(recipients, dayLabel, entries)) else None;
    return Plan(records, email, None);
  }

  /** Every page the filter selected has a readable edit time. */
  lemma SelectedPagesConvert(response: Option<SearchResponse>, now: string)
    requires FilterYesterdayUpdates(response, now).Ok?
    ensures YesterdayWindow(now).Ok?
    ensures forall p :: p in FilterYesterdayUpdates(response, now).value ==> EditedKst(p).Ok?
  {
    var w := YesterdayWindow(now).value;
    if Truthy(response) && response.value.results.Some? {
      FilterPagesSelects(response.value.results.value, w);
    }
  }
}

=== FILE: errors.dfy ===
/** Failure-carrying values used throughout the model.

    The script never catches an exception: a `KeyError`, `ValueError` or
    `OverflowError` raised anywhere ends the run.  Each such raise is modelled
    as an `Err` value that the caller propagates unchanged.
 */
module Errors {

  /** A value that may be absent: a dictionary key that is missing, or Python's `None`. */
  datatype Option<+T> = None | Some(value: T) {

    /** Python's `x if x is not None else fallback`. */
    function ValueOr(fallback: T): T {
      if Some? then value else fallback
    }
  }

  /** The exception kinds the modelled code can raise. */
  datatype PyError =
    | ValueError                  // int(), datetime(), fromisoformat() rejected their input
    | OverflowError               // a date moved outside years 1..9999, or a day beyond a C `int`
    | KeyError(key: string)       // a dictionary lookup `d[key]` on a missing key

  /** A computation that either returns a value or raises. */
  datatype Result<+T> = Ok(value: T) | Err(error: PyError) {

    predicate IsFailure() {
      Err?
    }

    function PropagateFailure<U>(): Result<U>
      requires Err?
    {
      Err(error)
    }

    function Extract(): T
      requires Ok?
    {
      value
    }
  }
}

=== FILE: filter.dfy ===
/** `filter_yesterday_updates`: keep the pages whose last edit, read in Korea
    time, falls in `[yesterday_start, today_start)`, in the order the search
    returned them.
 */
module Filter {
  import opened Errors
  import opened Civil
  import opened Instants
  import opened Stamps
  import opened RefDate
  import opened Pages

  /** The parsed JSON body of a successful search.  `results` is the
      `'results'` key; `otherKeys` records whether any other key is present,
      which decides the truthiness of a body without `'results'`. */
  datatype SearchResponse = SearchResponse(results: Option<seq<Page>>, otherKeys: bool)

  /** `if results:` on the search outcome, where a failed search is `None`. */
  predicate Truthy(response: Option<SearchResponse>) {
    response.Some? && (response.value.results.Some? || response.value.otherKeys)
  }

  /** `page['last_edited_time']` read as UTC and converted with
      `.astimezone(ZoneInfo("Asia/Seoul"))`. */
  function EditedKst(page: Page): (r: Result<DateTime>)
    ensures r.Ok? ==> ValidDateTime(r.value)
    ensures page.lastEditedTime.None? ==> r == Err(KeyError("last_edited_time"))
    ensures r.Ok? ==> page.lastEditedTime.Some? && ParseApiTimestamp(page.lastEditedTime.value).Ok?
  {
    match page.lastEditedTime
    case None => Err(KeyError("last_edited_time"))
    case Some(text) =>
      match ParseApiTimestamp(text)
      case Err(e) => Err(e)
      case Ok(utc) => ToKst(utc)
  }

  /** The Korea reading of a page's edit time is the same instant as the UTC
      text it came from. */
  lemma EditedKstSameInstant(page: Page)
    requires EditedKst(page).Ok?
    ensures InstantMs(EditedKst(page).value, KstOffsetSeconds)
            == InstantMs(ParseApiTimestamp(page.lastEditedTime.value).value, 0)
  {
    ToKstPreservesInstant(ParseApiTimestamp(page.lastEditedTime.value).value);
  }

  /** `yesterday_start_kst <= last_edited_kst < today_start_kst`. */
  predicate InWindow(t: DateTime, w: Window) {
    WallAtOrBefore(w.start, t) && WallBefore(t, w.end)
  }

  /** The page converts without error and its Korea time lies in the window. */
  predicate Kept(page: Page, w: Window) {
    EditedKst(page).Ok? && InWindow(EditedKst(page).value, w)
  }

  /** `r` is `s` with some elements left out and the rest in their order. */
  predicate IsSubsequence<T(==)>(r: seq<T>, s: seq<T>)
    decreases |s|
  {
    if |r| == 0 then true
    else if |s| == 0 then false
    else if r[0] == s[0] then IsSubsequence(r[1..], s[1..])
    else IsSubsequence(r, s[1..])
  }

  /** The loop of `filter_yesterday_updates` over `results['results']`.  The
      first page whose time cannot be read or converted raises, and nothing is
      returned. */
  function FilterPages(pages: seq<Page>, w: Window): (r: Result<seq<Page>>)
    ensures r.Ok? <==> forall i :: 0 <= i < |pages| ==> EditedKst(pages[i]).Ok?
    decreases |pages|
  {
    if |pages| == 0 then Ok([])
    else
      var head := pages[0];
      match EditedKst(head)
      case Err(e) => Err(e)
      case Ok(kst) =>
        var rest := FilterPages(pages[1..], w);
        if rest.Err? then
          Err(rest.error)
        else if InWindow(kst, w) then
          Ok([head] + rest.value)
        else
          rest
  }

  /** One step of the loop: a readable first page is kept in front of the
      rest's result exactly when it is in the window. */
  lemma FilterPagesStep(head: Page, tail: seq<Page>, w: Window)
    requires EditedKst(head).Ok? && FilterPages(tail, w).Ok?
    ensures FilterPages([head] + tail, w)
            == Ok((if Kept(head, w) then [head] else []) + FilterPages(tail, w).value)
  {
    var pages := [head] + tail;
    assert pages[0] == head;
    assert pages[1..] == tail;
    var rest := FilterPages(tail, w).value;
    if !Kept(head, w) {
      assert [] + rest == rest;
    }
  }

  /** The page whose time cannot be read or converted before all others does not convert. */
  predicate FirstFailureAt(pages: seq<Page>, i: int) {
    && 0 <= i < |pages| && EditedKst(pages[i]).Err?
    && forall j :: 0 <= j < i ==> EditedKst(pages[j]).Ok?
  }

  /** A failing filter raises the error of the first page that does not convert. */
  lemma {:induction false} FilterPagesFirstError(pages: seq<Page>, w: Window)
    requires FilterPages(pages, w).Err?
    ensures exists i :: FirstFailureAt(pages, i) && EditedKst(pages[i]).error == FilterPages(pages, w).error
    decreases |pages|
  {
    if EditedKst(pages[0]).Err? {
      assert FirstFailureAt(pages, 0);
    } else {
      var tail := pages[1..];
      FilterPagesFirstError(tail, w);
      var i :| FirstFailureAt(tail, i) && EditedKst(tail[i]).error == FilterPages(tail, w).error;
      assert tail[i] == pages[i + 1];
      assert FirstFailureAt(pages, i + 1) by {
        forall j | 0 <= j < i + 1 ensures EditedKst(pages[j]).Ok? {
          if j > 0 { assert pages[j] == tail[j - 1]; }
        }
      }
    }
  }

  /** The filter's output is the input with pages left out, order kept. */
  lemma {:induction false} FilterPagesIsSubsequence(pages: seq<Page>, w: Window)
    requires FilterPages(pages, w).Ok?
    ensures IsSubsequence(FilterPages(pages, w).value, pages)
    decreases |pages|
  {
    if |pages| > 0 {
      var head := pages[0];
      var tail := pages[1..];
      FilterPagesIsSubsequence(tail, w);
      var rest := FilterPages(tail, w).value;
      var r := FilterPages(pages, w).value;
      if Kept(head, w) {
        assert r == [head] + rest;
        assert r[1..] == rest;
      } else {
        assert r == rest;
        SubsequenceSkip(rest, head, tail);
        assert [head] + tail == pages;
      }
    }
  }

  /** Each page occurs in the output as often as in the input if it is kept,
      and not at all otherwise. */
  lemma {:induction false} FilterPagesCounts(pages: seq<Page>, w: Window)
    requires FilterPages(pages, w).Ok?
    ensures forall p :: multiset(FilterPages(pages, w).value)[p]
                        == if Kept(p, w) then multiset(pages)[p] else 0
    decreases |pages|
  {
    if |pages| > 0 {
      var head := pages[0];
      var tail := pages[1..];
      assert pages == [head] + tail;
      FilterPagesCounts(tail, w);
      var rest := FilterPages(tail, w).value;
      var r := FilterPages(pages, w).value;
      var keepHead := Kept(head, w);
      assert r == if keepHead then [head] + rest else rest;
      forall p ensures multiset(r)[p] == if Kept(p, w) then multiset(pages)[p] else 0 {
        assert multiset(pages)[p] == multiset([head])[p] + multiset(tail)[p];
        if keepHead {
          assert multiset(r)[p] == multiset([head])[p] + multiset(rest)[p];
        }
      }
    }
  }

  /** On success the filter returns exactly the kept pages: in input order, every
      one of them kept, every kept input page present, and as often as in the
      input. */
  lemma FilterPagesSelects(pages: seq<Page>, w: Window)
    requires FilterPages(pages, w).Ok?
    ensures var r := FilterPages(pages, w).value;
      && IsSubsequence(r, pages)
      && (forall p :: p in r ==> Kept(p, w))
      && (forall p :: p in pages && Kept(p, w) ==> p in r)
      && (forall p :: multiset(r)[p] == if Kept(p, w) then multiset(pages)[p] else 0)
  {
    FilterPagesIsSubsequence(pages, w);
    FilterPagesCounts(pages, w);
    var r := FilterPages(pages, w).value;
    forall p | p in r ensures Kept(p, w) {
      assert multiset(r)[p] > 0;
    }
    forall p | p in pages && Kept(p, w) ensures p in r {
      assert multiset(pages)[p] > 0;
    }
  }

  /** Putting an element in front of the larger sequence keeps a subsequence one. */
  lemma {:induction false} SubsequenceSkip<T>(r: seq<T>, x: T, s: seq<T>)
    requires IsSubsequence(r, s)
    ensures IsSubsequence(r, [x] + s)
    decreases |s|
  {
    var xs := [x] + s;
    assert xs[1..] == s;
    if |r| > 0 && r[0] == x {
      assert |s| > 0;
      assert [s[0]] + s[1..] == s;
      if r[0] != s[0] {
        SubsequenceSkip(r, x, s[1..]);
        assert ([x] + s[1..])[1..] == s[1..];
      }
      SubsequenceSkip(r[1..], s[0], s[1..]);
    }
  }

  /** `filter_yesterday_updates(results, now)`: the window is computed first, so
      a bad reference date raises even when the search failed; a falsy search
      outcome or one without `'results'` yields no pages. */
  function FilterYesterdayUpdates(response: Option<SearchResponse>, now: string): (r: Result<seq<Page>>)
    ensures YesterdayWindow(now).Err? ==> r == Err(YesterdayWindow(now).error)
    ensures YesterdayWindow(now).Ok? && !(Truthy(response) && response.value.results.Some?) ==> r == Ok([])
    ensures YesterdayWindow(now).Ok? && Truthy(response) && response.value.results.Some? ==>
              r == FilterPages(response.value.results.value, YesterdayWindow(now).value)
  {
    match YesterdayWindow(now)
    case Err(e) => Err(e)
    case Ok(w) =>
      if Truthy(response) && response.value.results.Some? then
        FilterPages(response.value.results.value, w)
      else Ok([])
  }

  /** A page is kept exactly when its UTC edit instant lies in the instants of a
      day window ending at midnight of day D, Korea time: from 15:00Z on D-2,
      inclusive, to 15:00Z on D-1, exclusive. */
  lemma KeptIffUtcInstantInWindow(page: Page, w: Window)
    requires DayWindow(w) && EditedKst(page).Ok?
    ensures var utc := InstantMs(ParseApiTimestamp(page.lastEditedTime.value).value, 0);
            Kept(page, w) <==>
              InstantMs(w.end, KstOffsetSeconds) - MillisPerDay <= utc < InstantMs(w.end, KstOffsetSeconds)
    ensures InstantMs(w.end, KstOffsetSeconds) == InstantMs(DateTime(PrevDay(w.end.date), 15, 0, 0, 0), 0)
  {
    var k := EditedKst(page).value;
    EditedKstSameInstant(page);
    WindowBounds(w);
    WallOrderIsInstantOrder(w.start, k, KstOffsetSeconds);
    WallOrderIsInstantOrder(k, w.end, KstOffsetSeconds);
  }

  /** The lower bound is inclusive and the upper bound exclusive. */
  lemma WindowIsHalfOpen(w: Window)
    requires ValidDateTime(w.start) && ValidDateTime(w.end) && WallBefore(w.start, w.end)
    ensures InWindow(w.start, w)
    ensures !InWindow(w.end, w)
  {
    WallOrderIsInstantOrder(w.end, w.end, 0);
  }
}

=== FILE: instants.dfy ===
/** Wall-clock date-times, the instants they denote at a fixed UTC offset, and
    the two `datetime` operations the watcher applies to them: conversion from
    UTC to Korea Standard Time (`astimezone`) and stepping back one civil day
    (`- timedelta(days=1)`).

    Instants are integers: milliseconds since 1970-01-01T00:00:00Z.
 */
module Instants {
  import opened Errors
  import opened Civil

  /** Asia/Seoul as a fixed offset of +09:00 (no daylight saving since 1988). */
  const KstOffsetHours := 9
  const KstOffsetSeconds := KstOffsetHours * 3600

  const MillisPerDay := 86_400_000

  /** The fields of a `datetime` down to milliseconds, read on some wall clock. */
  datatype DateTime = DateTime(date: Date, hour: int, minute: int, second: int, milli: int)

  predicate ValidDateTime(t: DateTime) {
    && ValidDate(t.date)
    && 0 <= t.hour < 24
    && 0 <= t.minute < 60
    && 0 <= t.second < 60
    && 0 <= t.milli < 1000
  }

  function TimeOfDayMs(t: DateTime): int {
    ((t.hour * 60 + t.minute) * 60 + t.second) * 1000 + t.milli
  }

  /** The instant a wall-clock reading denotes on a clock `offsetSeconds` ahead of UTC. */
  function InstantMs(t: DateTime, offsetSeconds: int): int
    requires ValidDateTime(t)
  {
    (Ordinal(t.date) - UnixEpochOrdinal) * MillisPerDay + TimeOfDayMs(t) - offsetSeconds * 1000
  }

  /** Python's comparison of two datetimes that share one `tzinfo` object: the
      wall fields (year, month, day, hour, minute, second, fraction) are compared
      lexicographically, with no offset adjustment. */
  predicate WallBefore(a: DateTime, b: DateTime) {
    || Before(a.date, b.date)
    || (a.date == b.date && a.hour < b.hour)
    || (a.date == b.date && a.hour == b.hour && a.minute < b.minute)
    || (a.date == b.date && a.hour == b.hour && a.minute == b.minute && a.second < b.second)
    || (a.date == b.date && a.hour == b.hour && a.minute == b.minute && a.second == b.second
        && a.milli < b.milli)
  }

  /** `a <= b` for two datetimes sharing one `tzinfo`. */
  predicate WallAtOrBefore(a: DateTime, b: DateTime) {
    a == b || WallBefore(a, b)
  }

  /** `dt.replace(hour=0, minute=0, second=0, microsecond=0)`. */
  function AtMidnight(t: DateTime): (m: DateTime)
    ensures m.date == t.date && TimeOfDayMs(m) == 0
    ensures ValidDateTime(t) ==> ValidDateTime(m)
  {
    t.(hour := 0, minute := 0, second := 0, milli := 0)
  }

  /** `utc_dt.astimezone(ZoneInfo("Asia/Seoul"))` for a datetime whose wall fields
      are UTC: nine hours later on the wall clock, carrying into the next day;
      `OverflowError` when that would pass 9999-12-31. */
  function ToKst(u: DateTime): (r: Result<DateTime>)
    requires ValidDateTime(u)
    ensures r.Ok? ==> ValidDateTime(r.value)
    ensures r.Err? <==> u.date == MaxDate && u.hour + KstOffsetHours >= 24
    ensures r.Err? ==> r.error == OverflowError
  {
    var h := u.hour + KstOffsetHours;
    if h < 24 then Ok(u.(hour := h))
    else if u.date == MaxDate then Err(OverflowError)
    else Ok(u.(date := NextDay(u.date), hour := h - 24))
  }

  /** `aware_dt - timedelta(days=1)`: the same wall time on the previous civil
      day; `OverflowError` before 0001-01-01. */
  function MinusOneDay(t: DateTime): (r: Result<DateTime>)
    requires ValidDateTime(t)
    ensures r.Ok? ==> ValidDateTime(r.value) && TimeOfDayMs(r.value) == TimeOfDayMs(t)
    ensures r.Err? <==> t.date == MinDate
    ensures r.Err? ==> r.error == OverflowError
  {
    if t.date == MinDate then Err(OverflowError) else Ok(t.(date := PrevDay(t.date)))
  }

  /** Replacing the time of day by midnight twice is the same as once, and a
      value already at midnight is left as it is. */
  lemma AtMidnightIdempotent(t: DateTime)
    ensures AtMidnight(AtMidnight(t)) == AtMidnight(t)
    ensures TimeOfDayMs(t) == 0 && ValidDateTime(t) ==> AtMidnight(t) == t
  {
  }

  /** Converting to Korea time changes the wall reading but not the instant. */
  lemma ToKstPreservesInstant(u: DateTime)
    requires ValidDateTime(u) && ToKst(u).Ok?
    ensures InstantMs(ToKst(u).value, KstOffsetSeconds) == InstantMs(u, 0)
  {
    if u.hour + KstOffsetHours >= 24 {
      OrdinalNextDay(u.date);
    }
  }

  /** One civil day earlier on a fixed-offset clock is exactly 24 hours earlier. */
  lemma MinusOneDayIs24Hours(t: DateTime, offsetSeconds: int)
    requires ValidDateTime(t) && MinusOneDay(t).Ok?
    ensures InstantMs(MinusOneDay(t).value, offsetSeconds) == InstantMs(t, offsetSeconds) - MillisPerDay
  {
    OrdinalPrevDay(t.date);
  }

  lemma TimeOfDayRange(t: DateTime)
    requires ValidDateTime(t)
    ensures 0 <= TimeOfDayMs(t) < MillisPerDay
  {
  }

  lemma {:induction false} SameDateOrder(a: DateTime, b: DateTime)
    requires ValidDateTime(a) && ValidDateTime(b) && a.date == b.date
    ensures WallBefore(a, b) <==> TimeOfDayMs(a) < TimeOfDayMs(b)
    ensures TimeOfDayMs(a) == TimeOfDayMs(b) ==> a == b
  {
  }

  /** On one fixed-offset clock, comparing wall fields is comparing instants. */
  lemma WallOrderIsInstantOrder(a: DateTime, b: DateTime, offsetSeconds: int)
    requires ValidDateTime(a) && ValidDateTime(b)
    ensures WallBefore(a, b) <==> InstantMs(a, offsetSeconds) < InstantMs(b, offsetSeconds)
    ensures WallAtOrBefore(a, b) <==> InstantMs(a, offsetSeconds) <= InstantMs(b, offsetSeconds)
  {
    TimeOfDayRange(a);
    TimeOfDayRange(b);
    OrdinalOrder(a.date, b.date);
    OrdinalOrder(b.date, a.date);
    if a.date == b.date {
      SameDateOrder(a, b);
      SameDateOrder(b, a);
    } else {
      if Ordinal(a.date) == Ordinal(b.date) {
        OrdinalInjective(a.date, b.date);
      }
    }
  }
}

=== FILE: pages.dfy ===
/** Page records as the search API returns them, and the two extractors the
    watcher applies to them: `extract_title` and `extract_user_id`.

    A JSON object becomes a datatype whose fields are `Option`s: `None` is a
    missing key.  The `properties` object becomes a sequence of (name, value)
    pairs in the order Python's dict iterates it (insertion order).
 */
module Pages {
  import opened Errors

  /** One rich-text span of a title; only its `plain_text` key is ever read. */
  datatype Span = Span(plainText: Option<string>)

  /** A property value: its `type` and, for title properties, its `title` list. */
  datatype Property = Property(kind: Option<string>, title: Option<seq<Span>>)

  /** The `last_edited_by` object. */
  datatype Editor = Editor(id: Option<string>)

  datatype Page = Page(
    id: Option<string>,
    url: Option<string>,
    lastEditedTime: Option<string>,
    lastEditedBy: Option<Editor>,
    properties: Option<seq<(string, Property)>>)

  /** The title used when none can be found ("no title"). */
  const Placeholder := "제목 없음"

  /** `prop_value.get('type') == 'title' and prop_value.get('title')`: the list
      must be present and non-empty to be truthy. */
  predicate IsTitleProperty(p: Property) {
    p.kind == Some("title") && p.title.Some? && |p.title.value| > 0
  }

  /** Property `i` is the first title property in iteration order. */
  predicate FirstTitleAt(props: seq<(string, Property)>, i: int) {
    && 0 <= i < |props| && IsTitleProperty(props[i].1)
    && forall j :: 0 <= j < i ==> !IsTitleProperty(props[j].1)
  }

  predicate NoTitle(props: seq<(string, Property)>) {
    forall j :: 0 <= j < |props| ==> !IsTitleProperty(props[j].1)
  }

  /** The position of the first title property at or after `from`. */
  function FirstTitleFrom(props: seq<(string, Property)>, from: nat): (r: Option<nat>)
    requires from <= |props|
    ensures r.Some? ==> from <= r.value < |props| && IsTitleProperty(props[r.value].1)
    ensures r.Some? ==> forall j :: from <= j < r.value ==> !IsTitleProperty(props[j].1)
    ensures r.None? ==> forall j :: from <= j < |props| ==> !IsTitleProperty(props[j].1)
    decreases |props| - from
  {
    if from == |props| then None
    else if IsTitleProperty(props[from].1) then Some(from)
    else FirstTitleFrom(props, from + 1)
  }

  /** `extract_title(page)`: the `plain_text` of the first span of the first
      title property in iteration order; the placeholder when there is no
      `properties` key, no such property, or that span has no `plain_text`. */
  function ExtractTitle(page: Page): string {
    match page.properties
    case None => Placeholder
    case Some(props) =>
      match FirstTitleFrom(props, 0)
      case None => Placeholder
      case Some(i) => props[i].1.title.value[0].plainText.ValueOr(Placeholder)
  }

  /** What `extract_title` returns, case by case: the placeholder without
      `properties` or without a title property, and otherwise the first span's
      `plain_text` (or the placeholder) of the first title property. */
  lemma ExtractTitleCases(page: Page)
    ensures page.properties.None? ==> ExtractTitle(page) == Placeholder
    ensures page.properties.Some? && NoTitle(page.properties.value) ==> ExtractTitle(page) == Placeholder
    ensures forall i :: page.properties.Some? && FirstTitleAt(page.properties.value, i) ==>
              ExtractTitle(page) == page.properties.value[i].1.title.value[0].plainText.ValueOr(Placeholder)
  {
    if page.properties.Some? {
      var props := page.properties.value;
      var r := FirstTitleFrom(props, 0);
      forall i | FirstTitleAt(props, i)
        ensures ExtractTitle(page) == props[i].1.title.value[0].plainText.ValueOr(Placeholder)
      {
        assert r.Some?;
        assert r.value == i;
      }
    }
  }

  /** `extract_user_id(page)`: `page['last_edited_by']['id']` when the page has a
      `last_edited_by` key, `None` otherwise; an editor object without `id`
      raises `KeyError`. */
  function ExtractUserId(page: Page): (r: Result<Option<string>>)
    ensures r == Ok(None) <==> page.lastEditedBy.None?
    ensures forall uid :: r == Ok(Some(uid)) <==> page.lastEditedBy == Some(Editor(Some(uid)))
    ensures r.Err? <==> page.lastEditedBy == Some(Editor(None))
  {
    match page.lastEditedBy
    case None => Ok(None)
    case Some(editor) =>
      match editor.id
      case None => Err(KeyError("id"))
      case Some(uid) => Ok(Some(uid))
  }

  /** A title property whose list is empty is passed over: putting one in front
      does not change the extracted title. */
  lemma EmptyTitleIsSkipped(page: Page, name: string, kind: Option<string>)
    requires page.properties.Some?
    ensures ExtractTitle(page.(properties := Some([(name, Property(kind, Some([])))] + page.properties.value)))
            == ExtractTitle(page)
  {
    var props := page.properties.value;
    var longer := [(name, Property(kind, Some([])))] + props;
    assert forall j :: 1 <= j <= |props| ==> longer[j] == props[j - 1];
    ExtractTitleShift(page, longer);
  }

  /** Prepending properties that are not titles does not change the title. */
  lemma ExtractTitleShift(page: Page, longer: seq<(string, Property)>)
    requires page.properties.Some?
    requires |longer| == |page.properties.value| + 1 && !IsTitleProperty(longer[0].1)
    requires forall j :: 1 <= j < |longer| ==> longer[j] == page.properties.value[j - 1]
    ensures ExtractTitle(page.(properties := Some(longer))) == ExtractTitle(page)
  {
    var props := page.properties.value;
    var moved := page.(properties := Some(longer));
    ExtractTitleCases(page);
    ExtractTitleCases(moved);
    var r := FirstTitleFrom(props, 0);
    if r.Some? {
      var i := r.value;
      assert FirstTitleAt(props, i);
      assert longer[i + 1] == props[i];
      assert FirstTitleAt(longer, i + 1) by {
        forall j | 0 <= j < i + 1 ensures !IsTitleProperty(longer[j].1) {
          if j > 0 { assert longer[j] == props[j - 1]; }
        }
      }
    } else {
      assert NoTitle(props);
      assert NoTitle(longer) by {
        forall j | 0 <= j < |longer| ensures !IsTitleProperty(longer[j].1) {
          if j > 0 { assert longer[j] == props[j - 1]; }
        }
      }
    }
  }

  /** The editor id depends on `last_edited_by` alone. */
  lemma UserIdReadsOnlyEditor(a: Page, b: Page)
    requires a.lastEditedBy == b.lastEditedBy
    ensures ExtractUserId(a) == ExtractUserId(b)
  {
  }
}

=== FILE: refdate.dfy ===
/** The reference day: `get_now` with an explicit `yyyymmdd` string, and the
    "yesterday" window `[today_start - 1 day, today_start)` derived from it in
    `filter_yesterday_updates` and `main`.  All wall readings here are Korea
    Standard Time.
 */
module RefDate {
  import opened Errors
  import opened Decimal
  import opened Civil
  import opened Instants

  /** Python's `s[:k]`: the first `k` characters, or all of a shorter string. */
  function Head(s: string, k: nat): (h: string)
    ensures |h| == if |s| < k then |s| else k
    ensures forall i :: 0 <= i < |h| ==> h[i] == s[i]
  {
    if |s| < k then s else s[..k]
  }

  /** Python's `s[k:]`: everything from position `k`, or nothing. */
  function Tail(s: string, k: nat): (t: string)
    ensures |t| == if |s| < k then 0 else |s| - k
    ensures forall i :: 0 <= i < |t| ==> t[i] == s[k + i]
  {
    if |s| < k then "" else s[k..]
  }

  /** The range of a C `int`, the type in which the `datetime` constructor
      receives its year, month and day arguments. */
  predicate FitsCInt(n: int) {
    -0x8000_0000 <= n < 0x8000_0000
  }

  /** `get_now(now)` with a string: year from `now[:4]`, month from `now[4:6]`,
      day from `now[6:]`, each read by `int()`.  The `datetime` constructor first
      converts its arguments to C `int`, raising `OverflowError` for a day outside
      that range (the year and month slices are too short to leave it); it then
      raises `ValueError` unless they name a real date in years 1..9999.  The
      result is that date's midnight, `.replace(hour=0, ...)` having nothing left
      to clear. */
  function GetNow(now: string): (r: Result<DateTime>)
    ensures r.Ok? ==> ValidDateTime(r.value) && TimeOfDayMs(r.value) == 0
    ensures r.Ok? ==> && ParseInt(Head(now, 4)) == Ok(r.value.date.year)
                      && ParseInt(Head(Tail(now, 4), 2)) == Ok(r.value.date.month)
                      && ParseInt(Tail(now, 6)) == Ok(r.value.date.day)
    ensures r.Err? ==> r.error.ValueError? || r.error.OverflowError?
    ensures var y, m, d := ParseInt(Head(now, 4)), ParseInt(Head(Tail(now, 4), 2)), ParseInt(Tail(now, 6));
            (r.Err? && r.error.OverflowError?) <==> y.Ok? && m.Ok? && d.Ok? && !FitsCInt(d.value)
    ensures r.Err? ==>
              var y, m, d := ParseInt(Head(now, 4)), ParseInt(Head(Tail(now, 4), 2)), ParseInt(Tail(now, 6));
              y.Err? || m.Err? || d.Err? || !ValidDate(Date(y.value, m.value, d.value))
  {
    var year :- ParseInt(Head(now, 4));
    var month :- ParseInt(Head(Tail(now, 4), 2));
    var day :- ParseInt(Tail(now, 6));
    var date := Date(year, month, day);
    if !FitsCInt(day) then
      Err(OverflowError)
    else if ValidDate(date) then
      Ok(AtMidnight(DateTime(date, 0, 0, 0, 0)))
    else
      Err(ValueError)
  }

  /** The `yyyymmdd` text of a date: the form `get_now` is documented to take. */
  function CompactDateText(d: Date): string
    requires d.year >= 0 && d.month >= 0 && d.day >= 0
  {
    ZeroPad(d.year, 4) + ZeroPad(d.month, 2) + ZeroPad(d.day, 2)
  }

  /** The half-open interval `[start, end)` of Korea wall times. */
  datatype Window = Window(start: DateTime, end: DateTime)

  /** From one midnight to the next: `start` is the midnight of the day before `end`'s. */
  predicate DayWindow(w: Window) {
    && ValidDateTime(w.end) && TimeOfDayMs(w.end) == 0 && w.end.date != MinDate
    && ValidDateTime(w.start) && TimeOfDayMs(w.start) == 0
    && w.start.date == PrevDay(w.end.date)
  }

  /** `today_start_kst = get_now(now)` and `yesterday_start_kst = today_start_kst
      - timedelta(days=1)`; stepping back from 0001-01-01 raises `OverflowError`. */
  function YesterdayWindow(now: string): (r: Result<Window>)
    ensures r.Ok? ==> GetNow(now) == Ok(r.value.end)
    ensures r.Ok? ==> DayWindow(r.value)
    ensures r.Err? <==> GetNow(now).Err? || GetNow(now).value.date == MinDate
  {
    match GetNow(now)
    case Err(e) => Err(e)
    case Ok(today) =>
      match MinusOneDay(today)
      case Err(e) => Err(e)
      case Ok(yesterday) => Ok(Window(yesterday, today))
  }

  /** The three slices `get_now` reads out of a `yyyymmdd` text are the year,
      the month and the day it was written from. */
  lemma CompactDateFields(d: Date)
    requires 0 <= d.year < 10000 && 0 <= d.month < 100 && 0 <= d.day
    ensures var s := CompactDateText(d);
      && ParseInt(Head(s, 4)) == Ok(d.year)
      && ParseInt(Head(Tail(s, 4), 2)) == Ok(d.month)
      && ParseInt(Tail(s, 6)) == Ok(d.day)
  {
    assert Pow10(4) == 10000 && Pow10(2) == 100;
    ZeroPadWidth(d.year, 4);
    ZeroPadWidth(d.month, 2);
    ParseIntRoundTrip(d.year, 4);
    ParseIntRoundTrip(d.month, 2);
    ParseIntRoundTrip(d.day, 2);
    CompactSlices(ZeroPad(d.year, 4), ZeroPad(d.month, 2), ZeroPad(d.day, 2));
  }

  lemma CompactSlices(y: string, m: string, d: string)
    requires |y| == 4 && |m| == 2
    ensures Head(y + m + d, 4) == y && Head(Tail(y + m + d, 4), 2) == m && Tail(y + m + d, 6) == d
  {
    var s := y + m + d;
    assert s[..4] == y;
    assert s[4..][..2] == m;
    assert s[6..] == d;
  }

  /** `get_now` reads back every `yyyymmdd` text of a valid date as that date's
      midnight. */
  lemma GetNowRoundTrip(d: Date)
    requires ValidDate(d)
    ensures GetNow(CompactDateText(d)) == Ok(DateTime(d, 0, 0, 0, 0))
  {
    CompactDateFields(d);
  }

  /** The window of a reference text that names a date's midnight runs from the
      previous day's midnight to that midnight. */
  lemma WindowOfMidnight(now: string, d: Date)
    requires ValidDate(d) && d != MinDate && GetNow(now) == Ok(DateTime(d, 0, 0, 0, 0))
    ensures YesterdayWindow(now) == Ok(Window(DateTime(PrevDay(d), 0, 0, 0, 0), DateTime(d, 0, 0, 0, 0)))
  {
  }

  /** A `yyyymmdd` text whose month or day the calendar does not have is a
      `ValueError`, as long as the day fits a C `int`. */
  lemma GetNowRejectsImpossibleDates(d: Date)
    requires 0 <= d.year < 10000 && 0 <= d.month < 100 && 0 <= d.day < 0x8000_0000
    requires !ValidDate(d)
    ensures GetNow(CompactDateText(d)).Err? && GetNow(CompactDateText(d)).error.ValueError?
  {
    CompactDateFields(d);
  }

  /** A day too large for a C `int` raises `OverflowError`, whatever the year
      and month, since the conversion comes before the calendar checks. */
  lemma GetNowDayOverflow(d: Date)
    requires 0 <= d.year < 10000 && 0 <= d.month < 100 && d.day >= 0x8000_0000
    ensures GetNow(CompactDateText(d)) == Err(OverflowError)
  {
    CompactDateFields(d);
  }

  /** The window is one civil day long, 24 hours on the Korea clock, and in UTC
      it runs from 15:00 two days before the reference date to 15:00 the day
      before it. */
  lemma WindowBounds(w: Window)
    requires DayWindow(w)
    ensures InstantMs(w.start, KstOffsetSeconds) == InstantMs(w.end, KstOffsetSeconds) - MillisPerDay
    ensures InstantMs(w.end, KstOffsetSeconds) == InstantMs(DateTime(PrevDay(w.end.date), 15, 0, 0, 0), 0)
    ensures PrevDay(w.end.date) != MinDate ==>
              InstantMs(w.start, KstOffsetSeconds)
              == InstantMs(DateTime(PrevDay(PrevDay(w.end.date)), 15, 0, 0, 0), 0)
  {
    var d := w.end.date;
    var y := PrevDay(d);
    OrdinalPrevDay(d);
    assert InstantMs(w.end, KstOffsetSeconds) == (Ordinal(d) - UnixEpochOrdinal) * MillisPerDay - 32_400_000;
    assert InstantMs(w.start, KstOffsetSeconds) == (Ordinal(y) - UnixEpochOrdinal) * MillisPerDay - 32_400_000;
    if y != MinDate {
      OrdinalPrevDay(y);
    }
  }
}

=== FILE: scenarios.dfy ===
/** Worked examples for the reference date 2025-12-17 and for a reference date
    on New Year's Day, stated as lemmas about the model.
 */
module Scenarios {
  import opened Errors
  import opened Decimal
  import opened Civil
  import opened Instants
  import opened Stamps
  import opened RefDate
  import opened Pages
  import opened Filter
  import opened Digest

  /** `get_now("20251217")` is midnight of 17 December 2025. */
  lemma GetNowDec17()
    ensures GetNow("20251217") == Ok(DateTime(Date(2025, 12, 17), 0, 0, 0, 0))
  {
    var d := Date(2025, 12, 17);
    assert ZeroPad(2025, 4) == "2025" && ZeroPad(12, 2) == "12" && ZeroPad(17, 2) == "17";
    assert CompactDateText(d) == "20251217";
    GetNowRoundTrip(d);
  }

  /** Month 13 is rejected with `ValueError`. */
  lemma GetNowRejectsMonth13()
    ensures GetNow("20251317").Err? && GetNow("20251317").error.ValueError?
  {
    var d := Date(2025, 13, 17);
    assert ZeroPad(2025, 4) == "2025" && ZeroPad(13, 2) == "13" && ZeroPad(17, 2) == "17";
    assert CompactDateText(d) == "20251317";
    GetNowRejectsImpossibleDates(d);
  }

  /** 30 February is rejected with `ValueError`. */
  lemma GetNowRejectsFeb30()
    ensures GetNow("20250230").Err? && GetNow("20250230").error.ValueError?
  {
    var d := Date(2025, 2, 30);
    assert ZeroPad(2025, 4) == "2025" && ZeroPad(2, 2) == "02" && ZeroPad(30, 2) == "30";
    assert CompactDateText(d) == "20250230";
    GetNowRejectsImpossibleDates(d);
  }

  /** Day 2147483648, one past the largest C `int`, raises `OverflowError`
      rather than `ValueError`, although month 13 is invalid too. */
  lemma GetNowDayOverflowExample(d: Date)
    requires d == Date(2025, 13, 0x8000_0000)
    ensures GetNow(CompactDateText(d)) == Err(OverflowError)
    ensures !ValidDate(d)
  {
    GetNowDayOverflow(d);
  }

  /** For 1 January 2025 the window starts at 31 December 2024, 00:00 KST. */
  lemma NewYearWindow()
    ensures YesterdayWindow("20250101") == Ok(Window(DateTime(Date(2024, 12, 31), 0, 0, 0, 0),
                                                     DateTime(Date(2025, 1, 1), 0, 0, 0, 0)))
  {
    var d := Date(2025, 1, 1);
    assert ZeroPad(2025, 4) == "2025" && ZeroPad(1, 2) == "01";
    assert CompactDateText(d) == "20250101";
    GetNowRoundTrip(d);
    WindowOfMidnight("20250101", d);
  }

  /** For 17 December 2025 the window is the whole of 16 December, KST. */
  lemma Dec17Window()
    ensures YesterdayWindow("20251217") == Ok(Window(DateTime(Date(2025, 12, 16), 0, 0, 0, 0),
                                                     DateTime(Date(2025, 12, 17), 0, 0, 0, 0)))
  {
    var d := Date(2025, 12, 17);
    assert ZeroPad(2025, 4) == "2025" && ZeroPad(12, 2) == "12" && ZeroPad(17, 2) == "17";
    assert CompactDateText(d) == "20251217";
    GetNowRoundTrip(d);
    WindowOfMidnight("20251217", d);
  }

  function PageAt(stamp: string): Page {
    Page(Some("p"), Some("https://www.notion.so/p"), Some(stamp), None, None)
  }

  /** A page stamped with the API's text of `t` is kept exactly when the Korea
      reading of `t` is in the window. */
  lemma KeptIffKstInWindow(t: DateTime, stamp: string, k: DateTime, w: Window)
    requires ValidDateTime(t) && ApiTimestampText(t) == stamp && ToKst(t) == Ok(k)
    ensures EditedKst(PageAt(stamp)) == Ok(k)
    ensures Kept(PageAt(stamp), w) <==> InWindow(k, w)
  {
    ApiTimestampRoundTrip(t);
  }

  // Each lemma below fixes its parameter with a `requires` instead of writing the
  // literal in its contract; this only keeps the verifier from unfolding the
  // literal through every function it is passed to.

  const Dec16Window := Window(DateTime(Date(2025, 12, 16), 0, 0, 0, 0), DateTime(Date(2025, 12, 17), 0, 0, 0, 0))

  /** Edited at 2025-12-16T14:59:59Z, which is 23:59:59 KST that day: inside the window. */
  lemma LastSecondKept(t: DateTime)
    requires t == DateTime(Date(2025, 12, 16), 14, 59, 59, 0)
    ensures EditedKst(PageAt(ApiTimestampText(t))) == Ok(DateTime(Date(2025, 12, 16), 23, 59, 59, 0))
    ensures Kept(PageAt(ApiTimestampText(t)), Dec16Window)
  {
    var k := DateTime(Date(2025, 12, 16), 23, 59, 59, 0);
    assert ToKst(t) == Ok(k);
    KeptIffKstInWindow(t, ApiTimestampText(t), k, Dec16Window);
  }

  /** Edited at 2025-12-16T15:00:00Z, which is midnight KST of the 17th: outside the window. */
  lemma TodayStartDropped(t: DateTime)
    requires t == DateTime(Date(2025, 12, 16), 15, 0, 0, 0)
    ensures EditedKst(PageAt(ApiTimestampText(t))) == Ok(DateTime(Date(2025, 12, 17), 0, 0, 0, 0))
    ensures !Kept(PageAt(ApiTimestampText(t)), Dec16Window)
  {
    var k := DateTime(Date(2025, 12, 17), 0, 0, 0, 0);
    assert NextDay(Date(2025, 12, 16)) == Date(2025, 12, 17);
    assert ToKst(t) == Ok(k);
    KeptIffKstInWindow(t, ApiTimestampText(t), k, Dec16Window);
  }

  /** Edited at 2025-12-15T15:00:00Z, exactly the window's start: inside. */
  lemma YesterdayStartKept(t: DateTime)
    requires t == DateTime(Date(2025, 12, 15), 15, 0, 0, 0)
    ensures EditedKst(PageAt(ApiTimestampText(t))) == Ok(DateTime(Date(2025, 12, 16), 0, 0, 0, 0))
    ensures Kept(PageAt(ApiTimestampText(t)), Dec16Window)
  {
    var k := DateTime(Date(2025, 12, 16), 0, 0, 0, 0);
    assert NextDay(Date(2025, 12, 15)) == Date(2025, 12, 16);
    assert ToKst(t) == Ok(k);
    KeptIffKstInWindow(t, ApiTimestampText(t), k, Dec16Window);
  }

  /** Edited at 2025-12-16T23:59:59Z, which is 08:59:59 KST on the 17th: outside
      the window, although it is still the 16th in UTC. */
  lemma LateUtcEditDropped(t: DateTime)
    requires t == DateTime(Date(2025, 12, 16), 23, 59, 59, 0)
    ensures EditedKst(PageAt(ApiTimestampText(t))) == Ok(DateTime(Date(2025, 12, 17), 8, 59, 59, 0))
    ensures !Kept(PageAt(ApiTimestampText(t)), Dec16Window)
  {
    var k := DateTime(Date(2025, 12, 17), 8, 59, 59, 0);
    assert NextDay(Date(2025, 12, 16)) == Date(2025, 12, 17);
    assert ToKst(t) == Ok(k);
    KeptIffKstInWindow(t, ApiTimestampText(t), k, Dec16Window);
  }

  /** Of a page edited at 23:59:59Z and one edited at 14:59:59Z on 16 December,
      the filter for reference date 20251217 keeps only the second. */
  lemma Dec17Selection(late: DateTime, last: DateTime)
    requires late == DateTime(Date(2025, 12, 16), 23, 59, 59, 0)
    requires last == DateTime(Date(2025, 12, 16), 14, 59, 59, 0)
    ensures var p, q := PageAt(ApiTimestampText(late)), PageAt(ApiTimestampText(last));
            FilterPages([p, q], Dec16Window) == Ok([q])
  {
    var p, q := PageAt(ApiTimestampText(late)), PageAt(ApiTimestampText(last));
    LateUtcEditDropped(late);
    LastSecondKept(last);
    DropThenKeep(p, q, Dec16Window);
  }

  lemma DropThenKeep(p: Page, q: Page, w: Window)
    requires EditedKst(p).Ok? && !Kept(p, w) && Kept(q, w)
    ensures FilterPages([p, q], w) == Ok([q])
  {
    FilterPagesStep(q, [], w);
    assert [q] + [] == [q];
    FilterPagesStep(p, [q], w);
    assert [p] + [q] == [p, q];
  }
}

=== FILE: stamps.dfy ===
/** Text forms of dates and times that the watcher reads and writes:

    - `last_edited_time` as the search API sends it, `YYYY-MM-DDTHH:MM:SS.fffZ`,
      read by `datetime.fromisoformat(s.replace('Z', '+00:00'))`;
    - `strftime('%Y-%m-%d %H:%M:%S')` for the digest line;
    - `f"{y}-{m:02d}-{d:02d}"` for the tracking record's date;
    - `f"{m}/{d}"` for the e-mail subject.

    Each writer is paired with a reader, and the lemmas prove the round trips.
 */
module Stamps {
  import opened Errors
  import opened Decimal
  import opened Civil
  import opened Instants

  /** A non-empty run of decimal digits, read as a number. */
  function Field(x: string): (r: Option<nat>)
    ensures r.Some? <==> |x| > 0 && AllDigits(x)
    ensures r.Some? ==> r.value == DigitsValue(x)
  {
    if |x| > 0 && AllDigits(x) then Some(DigitsValue(x)) else None
  }

  /** `year-MM-DD` with a year of one or more digits: the text is split at the
      last two dashes. */
  function DateText(yearText: string, month: nat, day: nat): string {
    yearText + "-" + ZeroPad(month, 2) + "-" + ZeroPad(day, 2)
  }

  /** `HH:MM:SS`. */
  function ClockText(t: DateTime): string
    requires ValidDateTime(t)
  {
    ZeroPad(t.hour, 2) + ":" + ZeroPad(t.minute, 2) + ":" + ZeroPad(t.second, 2)
  }

  /** Reader for `DateText`: `None` unless the text has that shape and names a
      real calendar date. */
  function ReadDate(x: string): (r: Option<Date>)
    ensures r.Some? ==> ValidDate(r.value)
  {
    if |x| >= 7 && x[|x| - 6] == '-' && x[|x| - 3] == '-' then
      var y := Field(x[..|x| - 6]);
      var m := Field(x[|x| - 5..|x| - 3]);
      var d := Field(x[|x| - 2..]);
      if y.Some? && m.Some? && d.Some? && ValidDate(Date(y.value, m.value, d.value))
      then Some(Date(y.value, m.value, d.value))
      else None
    else None
  }

  /** Reader for `ClockText`, giving hour, minute and second. */
  function ReadClock(x: string): (r: Option<(nat, nat, nat)>)
    ensures r.Some? ==> r.value.0 < 24 && r.value.1 < 60 && r.value.2 < 60
  {
    if |x| == 8 && x[2] == ':' && x[5] == ':' then
      var h := Field(x[..2]);
      var m := Field(x[3..5]);
      var s := Field(x[6..]);
      if h.Some? && m.Some? && s.Some? && h.value < 24 && m.value < 60 && s.value < 60
      then Some((h.value, m.value, s.value))
      else None
    else None
  }

  /** `datetime.fromisoformat(s.replace('Z', '+00:00'))` for the two shapes the
      search API produces, `YYYY-MM-DDTHH:MM:SSZ` and `YYYY-MM-DDTHH:MM:SS.fffZ`.
      Every text accepted here is read the same way by Python 3.9 and 3.10,
      which accept a few further shapes as well.  The result's wall fields are
      UTC.  `fromisoformat` takes any single
      character between date and time, except that a `Z` there is rewritten to
      `+00:00` by the `replace`, which leaves a text it rejects.  An absent,
      out-of-range or misplaced field raises `ValueError`. */
  function ParseApiTimestamp(s: string): (r: Result<DateTime>)
    ensures r.Ok? ==> ValidDateTime(r.value)
    ensures r.Ok? ==> (|s| == 20 || |s| == 24) && s[|s| - 1] == 'Z' && s[10] != 'Z'
    ensures r.Ok? ==> && ReadDate(s[..10]) == Some(r.value.date)
                      && ReadClock(s[11..19]) == Some((r.value.hour, r.value.minute, r.value.second))
    ensures r.Ok? && |s| == 20 ==> r.value.milli == 0
    ensures r.Ok? && |s| == 24 ==> s[19] == '.' && Field(s[20..23]) == Some(r.value.milli)
    ensures && (|s| == 20 || |s| == 24) && s[|s| - 1] == 'Z' && s[10] != 'Z'
            && ReadDate(s[..10]).Some? && ReadClock(s[11..19]).Some?
            && (|s| == 20 || (s[19] == '.' && Field(s[20..23]).Some?))
            ==> r.Ok?
    ensures r.Err? ==> r.error.ValueError?
  {
    if (|s| == 20 || |s| == 24) && s[|s| - 1] == 'Z' && s[10] != 'Z' then
      var date := ReadDate(s[..10]);
      var clock := ReadClock(s[11..19]);
      var milli := if |s| == 20 then Some(0) else if s[19] == '.' then Field(s[20..23]) else None;
      assert milli.Some? ==> milli.value < 1000 by {
        if |s| == 24 && milli.Some? {
          DigitsValueBound(s[20..23]);
          assert Pow10(3) == 1000;
        }
      }
      if date.Some? && clock.Some? && milli.Some? then
        var (h, m, sec) := clock.value;
        Ok(DateTime(date.value, h, m, sec, milli.value))
      else Err(ValueError)
    else Err(ValueError)
  }

  /** The API's rendering of a UTC instant; the reader's partner in the round trip. */
  function ApiTimestampText(t: DateTime): string
    requires ValidDateTime(t)
  {
    DateText(ZeroPad(t.date.year, 4), t.date.month, t.date.day) + "T" + ClockText(t)
      + "." + ZeroPad(t.milli, 3) + "Z"
  }

  /** The API's rendering without a fraction, `YYYY-MM-DDTHH:MM:SSZ`. */
  function ApiSecondsText(t: DateTime): string
    requires ValidDateTime(t)
  {
    DateText(ZeroPad(t.date.year, 4), t.date.month, t.date.day) + "T" + ClockText(t) + "Z"
  }

  /** `dt.strftime('%Y-%m-%d %H:%M:%S')`; `%Y` is four digits, zero-padded. */
  function StrftimeText(t: DateTime): (s: string)
    requires ValidDateTime(t)
  {
    DateText(ZeroPad(t.date.year, 4), t.date.month, t.date.day) + " " + ClockText(t)
  }

  /** `f"{d.year}-{d.month:02d}-{d.day:02d}"`: the year is not padded. */
  function IsoDateText(d: Date): string
    requires ValidDate(d)
  {
    DateText(NatToString(d.year), d.month, d.day)
  }

  /** `f"{d.month}/{d.day}"`. */
  function MonthDayLabel(d: Date): string
    requires ValidDate(d)
  {
    NatToString(d.month) + "/" + NatToString(d.day)
  }

  lemma TwoDigits(n: nat)
    requires n < 100
    ensures |ZeroPad(n, 2)| == 2 && Field(ZeroPad(n, 2)) == Some(n)
  {
    assert Pow10(2) == 100;
    ZeroPadWidth(n, 2);
    ZeroPadRoundTrip(n, 2);
  }

  lemma ThreeDigits(n: nat)
    requires n < 1000
    ensures |ZeroPad(n, 3)| == 3 && Field(ZeroPad(n, 3)) == Some(n)
  {
    assert Pow10(3) == 1000;
    ZeroPadWidth(n, 3);
    ZeroPadRoundTrip(n, 3);
  }

  lemma FourDigits(n: nat)
    requires n < 10000
    ensures |ZeroPad(n, 4)| == 4 && Field(ZeroPad(n, 4)) == Some(n)
  {
    assert Pow10(4) == 10000;
    ZeroPadWidth(n, 4);
    ZeroPadRoundTrip(n, 4);
  }

  /** Reading back any `DateText` of a valid date gives that date. */
  lemma DateTextRoundTrip(yearText: string, d: Date)
    requires ValidDate(d) && Field(yearText) == Some(d.year)
    ensures |DateText(yearText, d.month, d.day)| == |yearText| + 6
    ensures ReadDate(DateText(yearText, d.month, d.day)) == Some(d)
  {
    TwoDigits(d.month);
    TwoDigits(d.day);
    var x := DateText(yearText, d.month, d.day);
    var n := |yearText|;
    assert x[..n] == yearText;
    assert x[n + 1..n + 3] == ZeroPad(d.month, 2);
    assert x[n + 4..] == ZeroPad(d.day, 2);
  }

  lemma ClockTextRoundTrip(t: DateTime)
    requires ValidDateTime(t)
    ensures |ClockText(t)| == 8
    ensures ReadClock(ClockText(t)) == Some((t.hour, t.minute, t.second))
  {
    TwoDigits(t.hour);
    TwoDigits(t.minute);
    TwoDigits(t.second);
    var x := ClockText(t);
    assert x[..2] == ZeroPad(t.hour, 2);
    assert x[3..5] == ZeroPad(t.minute, 2);
    assert x[6..] == ZeroPad(t.second, 2);
  }

  /** Where the parts of the API's rendering sit. */
  lemma ApiTimestampLayout(t: DateTime)
    requires ValidDateTime(t)
    ensures var s := ApiTimestampText(t);
      && |s| == 24 && s[23] == 'Z' && s[19] == '.' && s[10] == 'T'
      && s[..10] == DateText(ZeroPad(t.date.year, 4), t.date.month, t.date.day)
      && s[11..19] == ClockText(t)
      && s[20..23] == ZeroPad(t.milli, 3)
  {
    FourDigits(t.date.year);
    ThreeDigits(t.milli);
    DateTextRoundTrip(ZeroPad(t.date.year, 4), t.date);
    ClockTextRoundTrip(t);
    StampSlices(DateText(ZeroPad(t.date.year, 4), t.date.month, t.date.day), ClockText(t), ZeroPad(t.milli, 3));
  }

  lemma StampSlices(date: string, clock: string, milli: string)
    requires |date| == 10 && |clock| == 8 && |milli| == 3
    ensures var s := date + "T" + clock + "." + milli + "Z";
      && |s| == 24 && s[23] == 'Z' && s[19] == '.' && s[10] == 'T'
      && s[..10] == date && s[11..19] == clock && s[20..23] == milli
  {
  }

  /** Every valid UTC instant the API renders is read back unchanged. */
  lemma ApiTimestampRoundTrip(t: DateTime)
    requires ValidDateTime(t)
    ensures ParseApiTimestamp(ApiTimestampText(t)) == Ok(t)
  {
    ThreeDigits(t.milli);
    FourDigits(t.date.year);
    DateTextRoundTrip(ZeroPad(t.date.year, 4), t.date);
    ClockTextRoundTrip(t);
    ApiTimestampLayout(t);
  }

  /** A stamp without a fraction is read back as the same second, with
      milliseconds zero. */
  lemma ApiSecondsRoundTrip(t: DateTime)
    requires ValidDateTime(t)
    ensures ParseApiTimestamp(ApiSecondsText(t)) == Ok(t.(milli := 0))
  {
    FourDigits(t.date.year);
    DateTextRoundTrip(ZeroPad(t.date.year, 4), t.date);
    ClockTextRoundTrip(t);
    SecondsSlices(DateText(ZeroPad(t.date.year, 4), t.date.month, t.date.day), ClockText(t));
  }

  lemma SecondsSlices(date: string, clock: string)
    requires |date| == 10 && |clock| == 8
    ensures var s := date + "T" + clock + "Z";
      && |s| == 20 && s[19] == 'Z' && s[10] == 'T' && s[..10] == date && s[11..19] == clock
  {
  }

  /** Writing `Z` between the date and the time makes the stamp unreadable,
      although the digits are those of a valid instant. */
  lemma ZSeparatorRejected(t: DateTime)
    requires ValidDateTime(t)
    ensures ParseApiTimestamp(ApiTimestampText(t)[10 := 'Z']).Err?
  {
  }

  /** The digest's time stamp names the date and the time to the second. */
  lemma StrftimeRoundTrip(t: DateTime)
    requires ValidDateTime(t)
    ensures |StrftimeText(t)| == 19
    ensures ReadDate(StrftimeText(t)[..10]) == Some(t.date)
    ensures ReadClock(StrftimeText(t)[11..]) == Some((t.hour, t.minute, t.second))
  {
    FourDigits(t.date.year);
    var dt := DateText(ZeroPad(t.date.year, 4), t.date.month, t.date.day);
    DateTextRoundTrip(ZeroPad(t.date.year, 4), t.date);
    ClockTextRoundTrip(t);
    var s := StrftimeText(t);
    assert s[..10] == dt;
    assert s[11..] == ClockText(t);
  }

  /** The tracking record's date text names exactly the date it was made from. */
  lemma IsoDateRoundTrip(d: Date)
    requires ValidDate(d)
    ensures ReadDate(IsoDateText(d)) == Some(d)
  {
    NatToStringRoundTrip(d.year);
    DateTextRoundTrip(NatToString(d.year), d);
  }

  /** The subject label has one slash, with the unpadded month before it and
      the unpadded day after it. */
  lemma MonthDayLabelParts(d: Date)
    requires ValidDate(d)
    ensures var l := MonthDayLabel(d); var k := |NatToString(d.month)|;
      && 0 < k < |l| && l[k] == '/'
      && (forall i :: 0 <= i < |l| && i != k ==> IsDigit(l[i]))
      && Field(l[..k]) == Some(d.month)
      && Field(l[k + 1..]) == Some(d.day)
  {
    NatToStringRoundTrip(d.month);
    NatToStringRoundTrip(d.day);
    var l := MonthDayLabel(d);
    var k := |NatToString(d.month)|;
    assert l[..k] == NatToString(d.month);
    assert l[k + 1..] == NatToString(d.day);
  }
}
